=== FILE: README.md ===
# Python–VTK introspection bridge, modelled in Dafny

The bridge in `main.cpp` lets native code drive VTK objects through an embedded Python
interpreter. It keeps one registry, `nodes`, that maps each native VTK object (`vtkObjectBase *`)
to the Python "node" wrapping it. Around the registry it offers these operations:

- create an object;
- read, write and describe an object's properties;
- delete an object;
- fetch an object's output port and connect one object's output to another's input;
- call a method on an object. The raw Python result can be returned, resolved back to a
  registered native object, or run through a chain of further method calls whose last result
  is turned into text.

A method call's arguments come as a compact format string plus two vectors, native references
and value strings. `PyVtk_ArgvTuple` turns these into a Python argument tuple. In the format,
`s` `d` `f` `b` are scalar descriptors and `o` is an object descriptor (either case), and a
letter may be followed by a decimal repeat count.

The model is seven modules:

| file | module | contents |
|---|---|---|
| `outcomes.dfy` | `Outcomes` | `Option`. `Outcome` = `Ok(value)` / `Null` (the NULL sentinel the bridge returns) / `Fault(hazard)` (undefined behaviour or an uncaught C++ exception). |
| `decimal.dfy` | `Decimal` | C-locale character classes, `std::stoi` on a digit run, `std::stol` in base 10 with 32-bit `long` |
| `format.dfy` | `Format` | the two `argsize` counters and the repeat-count scan |
| `bridge.dfy` | `Bridge` | native handles, Python objects, arguments, tuples, the registry, and the `Runtime` record of every Python and toolkit call |
| `marshal.dfy` | `Marshal` | `PyVtk_ArgvTuple` |
| `introspector.dfy` | `Introspector` | the registry operations, `PyVtk_ObjectMethod`, `PyVtk_ObjectMethodAsVtkObject`, finalisation |
| `piped.dfy` | `Piped` | `PyVtk_PipedObjectMethod`, `PyVtk_PipedObjectMethodAsString` |

**Runtime.** The interpreter and the VTK wrapping utilities are not modelled. Each call the
bridge makes into them (`Introspector.createVtkObject`, `vtkInstanceCall`, `genericCall`,
`vtkPythonUtil::GetPointerFromObject`, `PyString_AsString`, `std::stod`, …) is a total function
in a `Runtime` record. `None` in that record stands for a NULL result. Every operation takes
the record as a parameter. So a sequence of operations against an interpreter whose state
changes is a sequence of calls, each with its own record.

**Registry order.** The hash map's iteration order is a parameter `order` that lists every
registered key. The map promises nothing more about it.

**Where the code and its description disagree.** The model follows the code in each case:

- The registry is described as a bijection, but nothing enforces that.
  `Introspector.CreatePreservesInjective` states the condition under which creation keeps it
  one-to-one.
- A failed property write is silent: the function returns nothing. The model returns an
  outcome only so that this case can be stated. A failed connection does report itself, with
  `false`.
- A delete whose Python hook fails keeps the registry entry.
- The marshaler's reference and value counters are declared inside the loop body. They are
  therefore 0 for every descriptor, and every descriptor reads reference 0 or value 0
  (`Marshal.CountersRestartPerDescriptor`).
- The loop index is both the format position and the tuple slot. A repeat count therefore
  moves the slot that is written (`Marshal.RepeatLeavesFirstSlotEmpty`). A format made only of
  `"f3"` can never marshal (`Marshal.RepeatedSoleDescriptorNeverMarshals`): with values that
  parse, its group goes to slot 1 of a one-slot tuple (`Marshal.SoleRepeatWritesPastEnd`).
- A repeat run in the middle of a format leaves a slot NULL and drops the last descriptor
  (`Marshal.RepeatSkipsSlotAndDescriptor`). The tuple is still handed to the interpreter; the
  model treats handing over such a tuple as a fault (`Introspector.SkippedSlotStopsCall`).
- The three-argument counter gives `"f3"` one value slot, while the marshaler reads three
  values (`Marshal.RepeatReadsPastCountedWindow`).
- The chained call never checks the result of its first step. A NULL there surfaces only when
  step 1's call is built (`Piped.FailedFirstStepIsUnchecked`).

## Model

| member | source | states |
|---|---|---|
| Format.ArgSize | main.cpp:423-436 | the one-argument count never exceeds the format's length |
| Format.ArgSizeCountsLetters | main.cpp:423-436 | the count is exactly the number of letter positions of the format; digits and other characters are not counted |
| Format.CountSlots | main.cpp:731-745 | the three-argument count adds one reference slot per `o`/`O` and one value slot per other letter; the two increments together equal the one-argument count |
| Format.ScanRepeat | main.cpp:465-479 | the repeat count is the decimal value of the maximal digit run after the letter, or 0 without one, and never exceeds `INT_MAX`; the scan position moves to the run's last digit; the scan throws exactly when the run is non-empty and its value exceeds `INT_MAX` |
| Format.ScanRepeatWithoutDigits | main.cpp:465-479 | a letter not followed by a digit has count 0 and occupies only its own position |
| Format.FormatExamples | main.cpp:423-436 | the counts of `""`, `"f3"`, `"sdf"` and `"o"` under both counters |
| Decimal.Show | main.cpp:535 | the decimal spelling of a number is non-empty, all digits, with no leading zero |
| Decimal.ValueOfShow | main.cpp:535 | reading a spelled-out number back gives the number |
| Decimal.DigitRunEnd | main.cpp:468-472 | the run of digits found is maximal |
| Decimal.Stoi | main.cpp:477 | `std::stoi` yields the run's value and throws exactly when it exceeds `INT_MAX` |
| Decimal.StoiShow | main.cpp:477 | `std::stoi` reads back the printed form of every `int` and throws on that of every larger number |
| Decimal.Stol | main.cpp:535 | `std::stol` yields only values inside the 32-bit `long` range |
| Decimal.StolShowLong | main.cpp:535 | `std::stol` reads back every `long` from its printed form and throws on the printed form of every integer outside the `long` range |
| Decimal.StolReads | main.cpp:535 | for any text holding a number, `std::stol` skips the leading white space, reads one sign and the digit run after it, ignores leading zeros and whatever follows the run, and yields that number when it fits a `long`, else throws |
| Decimal.StolExamples | main.cpp:535 | `" +007x"` reads 7 and `"\t-12"` reads -12 |
| Decimal.StolNeedsDigit | main.cpp:535 | text with no digit makes `std::stol` throw |
| Marshal.DecodeScalar | main.cpp:521-556 | `s` keeps the text; `d` is the `stol` value and `b` is its truth; `f` succeeds exactly when `stod` does and is then the `stod` value; another letter is NULL; a throwing conversion is the conversion fault; the result always has the kind of its letter |
| Marshal.DecodeScalarText | main.cpp:521-556 | decoding inverts the native caller's encoding for every string, every `long` and both booleans |
| Marshal.DecodeGroup | main.cpp:558-612 | a repeat group has exactly `spec` items, and it succeeds whenever values `0..spec-1` all exist and decode |
| Marshal.DecodeGroupFailure | main.cpp:573-609 | a group is built exactly when each of its items resolves on its own; otherwise the first item that does not decides the outcome: a missing value or a NULL text for a scalar letter is a fault, and a failing conversion is its fault |
| Marshal.DecodeGroupYields | main.cpp:573-609 | item `k` of a group is value `k` decoded; a group never reads fewer than `spec` values |
| Marshal.DescriptorArg | main.cpp:481-612 | an object descriptor resolves reference 0 to its registered node, else to the toolkit's wrapper, else NULL; with no reference it is a fault. A scalar descriptor faults with no value, is NULL when value 0 is NULL, otherwise decodes value 0 or a group of `spec` values, and succeeds whenever those values exist and decode |
| Marshal.DescriptorArgIgnoresRegistry | main.cpp:507-612 | scalar descriptors never consult the registry |
| Marshal.Fill | main.cpp:457-625 | a successful fill has `argc` slots and never changes slots before the scan position |
| Marshal.ArgvTuple | main.cpp:439-628 | a successful tuple has exactly `argc` slots (its contents: `Marshal.ArgvTupleContents`; its failures: `Marshal.ArgvTupleFailure`) |
| Marshal.Reached | main.cpp:457-479 | the descriptors the loop reaches lie before `argc`, each with the repeat run scanned at its position, and each one after the slot its predecessor wrote |
| Marshal.FillStepOk | main.cpp:457-624 | one turn of a successful loop scans, decodes and writes the descriptor at the scan position, then continues after the slot written |
| Marshal.FillReachesEnd | main.cpp:457-479 | a successful loop's last reached descriptor writes slot `argc - 1` |
| Marshal.FillWritesReached | main.cpp:457-624 | a successful loop writes every reached descriptor's argument at the slot its repeat run ends on |
| Marshal.FillKeepsUnwritten | main.cpp:457-624 | a successful loop leaves every slot no reached descriptor writes as it was |
| Marshal.FillUnfolds | main.cpp:457-624 | a descriptor that scans, fits and resolves is written at its slot, and the loop continues after that slot |
| Marshal.ReachedStep | main.cpp:457-479 | a scan that ends at `argc` reaches the descriptor at its start position first |
| Marshal.ReachesEndRest | main.cpp:457-479 | the rest of a scan that ends at `argc` also ends at `argc` |
| Marshal.ReachedRest | main.cpp:457-624 | when a scan ends at `argc` and every reached descriptor resolves, the first descriptor resolves and the rest of the scan keeps both properties |
| Marshal.FillSucceeds | main.cpp:457-624 | a loop whose reached descriptors end at `argc` and all resolve succeeds |
| Marshal.ArgvTupleSucceeds | main.cpp:439-628 | for any format, marshaling succeeds exactly when the reached descriptors end at `argc` and every one of them resolves |
| Marshal.FillFailure | main.cpp:457-624 | a failing loop fails as the first reached descriptor that does not resolve; when all resolve, the scan stopped before `argc`, with the repeat count there throwing, the descriptor there failing, or its argument going to a slot past the end |
| Marshal.ArgvTupleFailure | main.cpp:439-628 | for any format, a failed marshaling has the outcome of the first reached descriptor that does not resolve; when all resolve, it stopped before `argc` at a throwing repeat count (`stoi`), a failing descriptor, or a write past the tuple |
| Marshal.ArgvTupleContents | main.cpp:439-628 | for any format, a built tuple holds each reached descriptor's argument at the slot its repeat run ends on and NULL in every other slot |
| Marshal.RepeatSkipsSlotAndDescriptor | main.cpp:475-479 | `"ss2s"` builds `[a, NULL, group(a, b)]`: slot 1 stays NULL and the last descriptor is never read |
| Marshal.FillStepDigitFree | main.cpp:457-625 | without digits, one turn decodes the descriptor at `i` and writes it at slot `i`, or stops with its failure |
| Marshal.FillDigitFreeOk | main.cpp:457-625 | without digits, the loop succeeds exactly when every remaining descriptor resolves |
| Marshal.FillDigitFreeValues | main.cpp:457-625 | without digits, each remaining slot holds its own descriptor's argument |
| Marshal.FillDigitFreeFailure | main.cpp:457-625 | without digits, a failed loop reports the first descriptor that fails |
| Marshal.ArgvTupleDigitFree | main.cpp:439-628 | for a format without digits: the tuple is built exactly when every descriptor resolves; slot `k` then holds descriptor `k`'s argument; otherwise the first failing descriptor decides the outcome |
| Marshal.CountersRestartPerDescriptor | main.cpp:459-460 | `"ss"` over values `a`, `b` passes `a` twice |
| Marshal.RepeatLeavesFirstSlotEmpty | main.cpp:475-479 | a repeat count right after the first letter leaves slot 0 of a built tuple NULL |
| Marshal.RepeatedSoleDescriptorNeverMarshals | main.cpp:475-479 | `"f3"` with its own count of 1 never yields a tuple |
| Marshal.SoleRepeatWritesPastEnd | main.cpp:475-624 | `"f3"` with three values that parse builds its group, then writes it to slot 1 of the one-slot tuple: a write past the end |
| Marshal.RepeatReadsPastCountedWindow | main.cpp:573-575 | `"f3"` is counted one value slot, but marshaling reads past that single value |
| Marshal.FillAgrees | main.cpp:457-625 | two descriptor decoders that agree on the format's letters marshal it alike |
| Marshal.ArgvTupleIgnoresRegistry | main.cpp:439-628 | a format without object descriptors marshals the same under any registry |
| Introspector.InsertIfAbsent | main.cpp:174 | `insert` adds the key and never overwrites an existing entry |
| Introspector.CreateVtkObject | main.cpp:140-177 | the registry only grows, by at most the returned key. Either Python call failing gives NULL and no change. Otherwise the unwrapped address is returned and registered, with the new node when the address was not yet present |
| Introspector.CreatePreservesInjective | main.cpp:174 | creation keeps the registry one-to-one when the new node is not already registered |
| Introspector.FindSeparator | main.cpp:220 | finds the first `::` at or after a position, or reports there is none |
| Introspector.SplitDecorate | main.cpp:220 | splitting a tagged text at its first `::` recovers a colon-free tag and the value |
| Introspector.GetVtkObjectProperty | main.cpp:180-227 | an unknown object, a failed read or a non-text value give NULL; otherwise the value text tagged with the expected type |
| Introspector.PropertyReadSplits | main.cpp:218-221 | a caller recovers the expected type and the property text from a property read |
| Introspector.SetVtkObjectProperty | main.cpp:230-253 | an unknown object is skipped; the write is done exactly when the object is registered and the setter succeeds |
| Introspector.GetVtkObjectDescriptor | main.cpp:256-297 | a text comes back exactly when the object is registered, its description call succeeds and the description is text; the text is the description's |
| Introspector.DeleteVtkObject | main.cpp:300-333 | true exactly when the object is registered and its delete hook succeeds; then exactly that entry is removed, otherwise nothing changes |
| Introspector.DeleteIsFinal | main.cpp:300-333 | after a successful delete the object is unknown, other entries are intact, and deleting it again returns false with no change |
| Introspector.GetOutputPort | main.cpp:336-365 | NULL for an unknown object or a failed port call; otherwise the unwrapped port address, which is not registered |
| Introspector.ConnectVtkObject | main.cpp:368-401 | connects exactly when the producer is registered and its port is obtained; the consumer's input is then the port `GetOutputPort` returns |
| Introspector.ObjectMethod | main.cpp:631-679 | an unknown object gives NULL; a marshaling failure propagates; a tuple with a NULL slot is a fault; otherwise the result is what `vtkInstanceCall` returns on the node with the marshaled tuple, and NULL when that call returns NULL |
| Introspector.ObjectMethodIgnoresRegistry | main.cpp:640-656 | without object descriptors, two registries that agree on the target make the same call |
| Introspector.SkippedSlotStopsCall | main.cpp:646-656 | a call with format `"ss2s"` faults on the NULL slot its repeat run leaves |
| Introspector.DeletedObjectIsUnknown | main.cpp:300-333 | after a successful delete, writing the object is skipped, and reading, describing or calling it gives NULL |
| Introspector.FindNode | main.cpp:699-706 | a key found holds the node; when none is found, no listed key holds it |
| Introspector.ObjectMethodAsVtkObject | main.cpp:682-728 | a failed call changes nothing; a result already registered yields its key with no change; otherwise a new node is registered under the unwrapped address unless present; the registry only grows, by at most the returned key |
| Introspector.AsVtkObjectIsIdempotent | main.cpp:682-728 | repeating a successful call without object arguments leaves the registry unchanged and resolves to the same node, and to the same key on a one-to-one registry |
| Introspector.Survivors | main.cpp:404-420 | the survivors of teardown are among the registered keys |
| Introspector.TeardownKeeps | main.cpp:407-411 | deleting along any order keeps exactly the entries not visited and those whose delete hook failed |
| Introspector.FinalizeIntrospector | main.cpp:404-420 | after finalisation the registry holds exactly the entries whose delete hook failed |
| Piped.OffsetsMonotone | main.cpp:767-786 | the window offsets never decrease from step to step |
| Piped.OffsetsCountDescriptors | main.cpp:731-745 | after `k` formats, the offsets count those formats' reference descriptors and all their descriptors |
| Piped.TotalsAppend | main.cpp:731-745 | adding a format adds its descriptors to the totals |
| Piped.StepArgc | main.cpp:782-789 | the argument count a step computes from the counters' growth equals its format's one-argument count |
| Piped.StepWindow | main.cpp:767-786 | a step's windows exist exactly when the counters after it fit the vectors; they hold that step's reference and value descriptors, taken from its offsets |
| Piped.StepArgs | main.cpp:780-794 | a step's tuple is its format marshaled over its windows, with one slot per descriptor; an overrunning window is a fault |
| Piped.FirstStep | main.cpp:764-775 | step 0 is a plain method call on the registered object with its windows |
| Piped.Pipe | main.cpp:777-814 | the issued calls have consecutive methods and their steps' tuples. Each call's target is the previous call's answer. Success issues every remaining call and returns the last answer. Every issued tuple is filled. Failure is decided in the code's order: a call that answered NULL stops the chain with NULL; past the last method a NULL caller gives NULL; then a step whose arguments failed propagates that failure; then a NULL caller gives NULL; otherwise the step's tuple has a NULL slot and the chain faults |
| Piped.PipedObjectMethod | main.cpp:751-815 | as `Pipe`, from step 0's result: the first issued call's target is step 0's result; a one-method chain returns step 0's result; a faulting step 0 is the whole result: its fault, with no call issued |
| Piped.PrependStopped | main.cpp:777-811 | a chain that stops after a call that answered stops the same way once that call is put in front of it |
| Piped.PipeNullAnswerStops | main.cpp:796-806 | a call that answers NULL ends the chain with NULL; it is the last call issued |
| Piped.SingleWindow | main.cpp:767-786 | the windows of a one-format chain are the leading parts of the vectors, as long as the format's descriptors |
| Piped.SingleMethodChain | main.cpp:751-815 | a chain of one method is `PyVtk_ObjectMethod` on the leading parts of the vectors |
| Piped.FailedFirstStepIsUnchecked | main.cpp:774-806 | a NULL first step still builds step 1's arguments, then ends with NULL and no call issued |
| Piped.FormatResult | main.cpp:826-851 | a failed chain propagates; a failed `outputFormat` gives NULL; a formatted value that is not text is a fault (`strdup(NULL)`); otherwise the result is the formatted value's text |
| Piped.PipedObjectMethodAsString | main.cpp:818-852 | text comes back only when the whole chain succeeded, with every call after the first issued and answered |
| Piped.SingleMethodChainAsString | main.cpp:818-852 | a one-method chain's text is `outputFormat` of `PyVtk_ObjectMethod` on the leading parts of the vectors, read as text |

## Left out

- Interpreter start-up and shut-down (`PyVtk_InitIntrospector`, `Py_Finalize`) and the
  module-path set-up: they are I/O against the interpreter, and the model begins with a
  registry and a `Runtime`.
- Reference counting: leaks, the decrement of a borrowed node, and the descriptor text
  returned after its owner is released. The model has no heap.
- Allocation failures of `PyTuple_New`, `PyString_FromString` and `strdup`, and string
  encoding errors. The corresponding Python results are treated as never NULL.
- `std::stod` is the `stod` oracle returning opaque 64-bit patterns, because floating-point
  parsing is out of scope.
- `vtkPythonUtil` wrapping and unwrapping are the `pointerOf` and `wrapPointer` oracles.
- `SetInputConnection` on the consumer is the returned `Link`. A NULL consumer pointer is not
  modelled.
- Diagnostics on `stderr`, `PyErr_Print`, and the `PYTHON_EMBED_LOG` log: output only.
- The benchmark timers, CSV output, test drivers, `main`, rendering and `split`: they are not
  part of the bridge.
- Introspector.FinalizeIntrospector: models the evident intent, which is to delete every key
  present at the start. The source erases from the map it is iterating over, which is
  undefined behaviour.
- Piped.PipedObjectMethod: requires at least one method and no more methods than formats. The
  code indexes both vectors without a check.
- The oracles are deterministic within one operation: the same call gets the same answer.
  The bridge does repeat calls within one operation: `"oo"` wraps reference 0 twice, a chain
  can call the same method on the same object twice, and finalisation deletes a node shared by
  two keys twice. The interpreter could answer such a repeat differently; the model cannot.
- Introspector.FinalizeIntrospector: exact only for a one-to-one registry. When two keys share
  a node, the deterministic delete hook answers the second delete as it answered the first,
  while the interpreter may fail it.
- Introspector.TeardownKeeps: exact only for a one-to-one registry, for the same reason.
- C strings are any `seq<char>`: a format, method name or class name with an embedded NUL is
  read whole, while `strlen` and the interpreter stop at the NUL. NULL format, method and class
  name pointers are not modelled.
- A tuple with a NULL slot is a fault as soon as it is handed to the interpreter
  (`Marshal.Filled`). Whether the interpreter code reads that slot is not part of this model.

=== FILE: bridge.dfy ===
/** The entities the bridge moves between the native side and the embedded interpreter, and
    the interpreter and toolkit calls it makes, as an oracle record. */
module Bridge {
  import opened Outcomes

  /** A native toolkit object, identified by its address; 0 is the null pointer. */
  type Native = nat

  const NULL: Native := 0

  /** An object of the embedded interpreter, identified by its address. */
  datatype Dyn = Dyn(id: nat)

  /** One positional argument the marshaler builds: a decoded scalar, an interpreter object
      standing for a native reference, or a fixed-size group of scalars. A floating-point
      value is kept as the opaque bit pattern the text conversion produced. */
  datatype Arg =
    | Str(text: string)
    | Int(n: int)
    | Flt(bits: bv64)
    | Bool(b: bool)
    | Obj(node: Dyn)
    | Group(items: seq<Arg>)

  /** An argument tuple; None is a slot the marshaler never filled and left NULL. */
  type Tuple = seq<Option<Arg>>

  /** A value string the native caller hands over; None is a NULL `const char *`. */
  type Text = Option<string>

  /** The identity registry: each registered native object's interpreter-side node. */
  type Registry = map<Native, Dyn>

  /** Every interpreter and toolkit call the bridge makes, as a function of its arguments.
      None is a NULL result. An operation of the bridge consults one such record, so a run of
      operations over a changing interpreter is a run with one record per operation. */
  datatype Runtime = Runtime(
    /** `Introspector.createVtkObject(className)` */
    createVtkObject: string -> Option<Dyn>,
    /** the `vtkInstance` attribute of a node */
    vtkInstance: Dyn -> Option<Dyn>,
    /** the toolkit's unwrapping of an interpreter object to the native address it wraps;
        NULL when it wraps none */
    pointerOf: (Dyn, string) -> Native,
    /** the toolkit's wrapping of a native address into an interpreter object */
    wrapPointer: Native -> Option<Dyn>,
    /** `Introspector.getVtkObjectAttribute(node, name)` */
    getAttribute: (Dyn, string) -> Option<Dyn>,
    /** `Introspector.setVtkObjectAttribute(node, name, format, value)` */
    setAttribute: (Dyn, string, string, string) -> Option<Dyn>,
    /** `Introspector.getVtkObjectDescriptor(node)` */
    describe: Dyn -> Option<Dyn>,
    /** `Introspector.deleteVtkObject(node)` */
    deleteNode: Dyn -> Option<Dyn>,
    /** `Introspector.getVtkObjectOutputPort(node)` */
    outputPort: Dyn -> Option<Dyn>,
    /** `Introspector.vtkInstanceCall(node, method, args)` */
    instanceCall: (Dyn, string, Tuple) -> Option<Dyn>,
    /** `Introspector.genericCall(object, method, args)` */
    genericCall: (Dyn, string, Tuple) -> Option<Dyn>,
    /** `Introspector.createVtkObjectWithInstance(className, object)` */
    createWithInstance: (string, Dyn) -> Option<Dyn>,
    /** `Introspector.outputFormat(object)` */
    outputFormat: Dyn -> Option<Dyn>,
    /** the text of an interpreter string object */
    asString: Dyn -> Option<string>,
    /** `std::stod`: the double a text denotes; None when it throws */
    stod: string -> Option<bv64>
  )
}

=== FILE: decimal.dfy ===
/** Character classes of the C locale and the base-10 conversions the bridge relies on:
    `std::stoi` on a descriptor's digit run and `std::stol(text, nullptr)` on a value string. */
module Decimal {
  import opened Outcomes

  /** `int` and `long` are both 32 bits wide on the Windows toolchain the bridge targets. */
  const INT_MAX: int := 0x7FFF_FFFF
  const LONG_MIN: int := -0x8000_0000
  const LONG_MAX: int := 0x7FFF_FFFF

  /** `isdigit` */
  predicate IsDigit(c: char) { '0' <= c <= '9' }

  /** `isalpha` */
  predicate IsAlpha(c: char) { 'a' <= c <= 'z' || 'A' <= c <= 'Z' }

  /** `isspace`: blank, and tab through carriage return. */
  predicate IsSpace(c: char) { c == ' ' || '\t' <= c <= '\r' }

  predicate AllDigits(s: string) {
    forall i :: 0 <= i < |s| ==> IsDigit(s[i])
  }

  function DigitValue(c: char): (d: nat)
    requires IsDigit(c)
    ensures d < 10
  {
    (c as int) - ('0' as int)
  }

  function DigitChar(d: nat): (c: char)
    requires d < 10
    ensures IsDigit(c) && DigitValue(c) == d
  {
    (('0' as int) + d) as char
  }

  /** The number a run of decimal digits denotes, read most significant digit first. */
  function Value(s: string): nat
    requires AllDigits(s)
  {
    if s == [] then 0 else Value(s[..|s| - 1]) * 10 + DigitValue(s[|s| - 1])
  }

  /** The shortest decimal spelling of a natural number. */
  function Show(n: nat): (s: string)
    ensures |s| > 0 && AllDigits(s)
    ensures n > 0 ==> s[0] != '0'
    decreases n
  {
    if n < 10 then [DigitChar(n)] else Show(n / 10) + [DigitChar(n % 10)]
  }

  /** Reading back a spelled-out number gives the number. */
  lemma {:induction false} ValueOfShow(n: nat)
    ensures Value(Show(n)) == n
    decreases n
  {
    if n >= 10 {
      var s := Show(n);
      assert s[..|s| - 1] == Show(n / 10);
      ValueOfShow(n / 10);
    }
  }

  /** The end of the maximal run of digits starting at `j`. */
  function DigitRunEnd(s: string, j: nat): (k: nat)
    requires j <= |s|
    ensures j <= k <= |s|
    ensures AllDigits(s[j..k])
    ensures k == |s| || !IsDigit(s[k])
    decreases |s| - j
  {
    if j < |s| && IsDigit(s[j]) then DigitRunEnd(s, j + 1) else j
  }

  /** The end of the maximal run of white space starting at `j`. */
  function SpaceRunEnd(s: string, j: nat): (k: nat)
    requires j <= |s|
    ensures j <= k <= |s|
    ensures forall i :: j <= i < k ==> IsSpace(s[i])
    ensures k == |s| || !IsSpace(s[k])
    decreases |s| - j
  {
    if j < |s| && IsSpace(s[j]) then SpaceRunEnd(s, j + 1) else j
  }

  /** `std::stoi` applied to a non-empty run of digits: None when it throws
      `std::out_of_range`. */
  function Stoi(digits: string): (r: Option<nat>)
    requires |digits| > 0 && AllDigits(digits)
    ensures r.Some? <==> Value(digits) <= INT_MAX
    ensures r.Some? ==> r.value == Value(digits)
  {
    if Value(digits) <= INT_MAX then Some(Value(digits)) else None
  }

  /** `stoi` reads back the printed form of every `int` and throws on that of every larger
      number. */
  lemma StoiShow(n: nat)
    ensures Stoi(Show(n)) == if n <= INT_MAX then Some(n) else None
  {
    ValueOfShow(n);
  }

  /** `std::stol(text, nullptr)` in base 10: leading white space is skipped, one optional sign
      is read, then the maximal run of digits; whatever follows is ignored. None when it
      throws: `std::invalid_argument` without a digit, `std::out_of_range` outside `long`. */
  function Stol(s: string): (r: Option<int>)
    ensures r.Some? ==> LONG_MIN <= r.value <= LONG_MAX
  {
    var a := SpaceRunEnd(s, 0);
    var negative := a < |s| && s[a] == '-';
    var b := if a < |s| && (s[a] == '-' || s[a] == '+') then a + 1 else a;
    var e := DigitRunEnd(s, b);
    if e == b then None
    else
      var magnitude: int := Value(s[b..e]);
      var n: int := if negative then -magnitude else magnitude;
      if LONG_MIN <= n <= LONG_MAX then Some(n) else None
  }

  /** The text a `long` prints as: an optional minus sign, then its digits. */
  function ShowLong(n: int): (s: string)
    ensures |s| > 0 && !IsSpace(s[0])
  {
    if n < 0 then "-" + Show(-n) else Show(n)
  }

  /** `stol` reads back every `long` from its printed form, and throws on the printed form of
      every integer outside the `long` range. */
  lemma StolShowLong(n: int)
    ensures Stol(ShowLong(n)) == if LONG_MIN <= n <= LONG_MAX then Some(n) else None
  {
    var s := ShowLong(n);
    assert SpaceRunEnd(s, 0) == 0;
    var b := if n < 0 then 1 else 0;
    var magnitude: nat := if n < 0 then -n else n;
    assert s[b..] == Show(magnitude);
    assert DigitRunEnd(s, b) == |s|;
    assert s[b..|s|] == Show(magnitude);
    ValueOfShow(magnitude);
  }

  /** A white-space run that stops at `k` ends at `k`. */
  lemma {:induction false} SpaceRunAt(s: string, j: nat, k: nat)
    requires j <= k <= |s|
    requires forall i :: j <= i < k ==> IsSpace(s[i])
    requires k == |s| || !IsSpace(s[k])
    ensures SpaceRunEnd(s, j) == k
    decreases k - j
  {
    if j < k {
      SpaceRunAt(s, j + 1, k);
    }
  }

  /** A digit run that stops at `k` ends at `k`. */
  lemma {:induction false} DigitRunAt(s: string, j: nat, k: nat)
    requires j <= k <= |s|
    requires forall i :: j <= i < k ==> IsDigit(s[i])
    requires k == |s| || !IsDigit(s[k])
    ensures DigitRunEnd(s, j) == k
    decreases k - j
  {
    if j < k {
      DigitRunAt(s, j + 1, k);
    }
  }

  /** How `stol` reads any text that holds a number: white space up to `a` is skipped, a sign
      at `a` is read, the digits after it up to `e` are the magnitude, and whatever follows
      `e` is ignored; leading zeros add nothing. The result is that number when it fits a
      `long`, and a throw otherwise. */
  lemma StolReads(s: string, a: nat, e: nat)
    requires a < e <= |s|
    requires forall i :: 0 <= i < a ==> IsSpace(s[i])
    requires !IsSpace(s[a])
    requires var b := if s[a] == '-' || s[a] == '+' then a + 1 else a;
      b < e && AllDigits(s[b..e]) && (e == |s| || !IsDigit(s[e]))
    ensures var b := if s[a] == '-' || s[a] == '+' then a + 1 else a;
      var n: int := if s[a] == '-' then -(Value(s[b..e]) as int) else Value(s[b..e]);
      Stol(s) == if LONG_MIN <= n <= LONG_MAX then Some(n) else None
  {
    SpaceRunAt(s, 0, a);
    var b := if s[a] == '-' || s[a] == '+' then a + 1 else a;
    assert forall i :: b <= i < e ==> IsDigit(s[i]) by {
      assert forall i :: b <= i < e ==> s[i] == s[b..e][i - b];
    }
    DigitRunAt(s, b, e);
  }

  /** Leading white space, a `+` sign and leading zeros are accepted and trailing text is
      ignored: `" +007x"` reads 7 and `"\t-12"` reads -12. */
  lemma StolExamples()
    ensures Stol(" +007x") == Some(7)
    ensures Stol("\t-12") == Some(-12)
  {
    var s := " +007x";
    assert s[2..5] == "007";
    assert Value("007") == 7 by {
      assert "007"[..2] == "00" && "00"[..1] == "0" && "0"[..0] == "";
    }
    StolReads(s, 1, 5);
    var u := "\t-12";
    assert u[2..4] == "12";
    assert Value("12") == 12 by {
      assert "12"[..1] == "1" && "1"[..0] == "";
    }
    StolReads(u, 1, 4);
  }

  /** Text without a digit after the optional white space and sign makes `stol` throw. */
  lemma StolNeedsDigit(s: string)
    requires forall i :: 0 <= i < |s| ==> !IsDigit(s[i])
    ensures Stol(s) == None
  {
    var a := SpaceRunEnd(s, 0);
    var b := if a < |s| && (s[a] == '-' || s[a] == '+') then a + 1 else a;
    assert DigitRunEnd(s, b) == b;
  }
}

=== FILE: format.dfy ===
/** The format-string grammar: one letter per descriptor (`s`, `d`, `f`, `b` scalars and `o`
    object references, either case), a letter optionally followed by a run of digits giving a
    repeat count. Two counting helpers and the repeat-count scan of the marshaler live here. */
module Format {
  import opened Outcomes
  import opened Decimal

  predicate IsObjectTag(c: char) { c == 'o' || c == 'O' }

  /** The one-argument `argsize`: the number of descriptors, one per letter. */
  function ArgSize(f: string): (n: nat)
    ensures n <= |f|
  {
    if f == [] then 0 else (if IsAlpha(f[0]) then 1 else 0) + ArgSize(f[1..])
  }

  /** The positions of the letters of a format. */
  function LetterPositions(f: string): set<nat> {
    set i: nat | i < |f| && IsAlpha(f[i])
  }

  lemma {:induction false} ArgSizeAppend(f: string, c: char)
    ensures ArgSize(f + [c]) == ArgSize(f) + (if IsAlpha(c) then 1 else 0)
  {
    if f != [] {
      assert (f + [c])[1..] == f[1..] + [c];
      ArgSizeAppend(f[1..], c);
    }
  }

  /** `argsize` counts exactly the letters; digits and other characters never count. */
  lemma {:induction false} ArgSizeCountsLetters(f: string)
    ensures ArgSize(f) == |LetterPositions(f)|
  {
    if f == [] {
      assert LetterPositions(f) == {};
    } else {
      var g := f[..|f| - 1];
      var c := f[|f| - 1];
      assert f == g + [c];
      ArgSizeCountsLetters(g);
      ArgSizeAppend(g, c);
      if IsAlpha(c) {
        assert LetterPositions(f) == LetterPositions(g) + {|g|};
      } else {
        assert LetterPositions(f) == LetterPositions(g);
      }
    }
  }

  /** The number of object-reference descriptors. */
  function RefCount(f: string): (n: nat)
    ensures n <= ArgSize(f)
  {
    if f == [] then 0 else (if IsObjectTag(f[0]) then 1 else 0) + RefCount(f[1..])
  }

  /** A pair of running counters: reference slots and value slots. */
  datatype Slots = Slots(refs: nat, vals: nat)

  /** The three-argument `argsize`: scans the format once, adding one reference slot per `o`
      or `O` and one value slot per other letter onto the counters it is handed. A digit run
      adds nothing, so `f3` is credited with a single value slot. */
  function CountSlots(f: string, acc: Slots): (r: Slots)
    ensures r.refs == acc.refs + RefCount(f)
    ensures r.vals == acc.vals + (ArgSize(f) - RefCount(f))
    ensures acc.refs <= r.refs && acc.vals <= r.vals
    ensures (r.refs - acc.refs) + (r.vals - acc.vals) == ArgSize(f)
  {
    if f == [] then acc
    else
      var next :=
        if IsObjectTag(f[0]) then Slots(acc.refs + 1, acc.vals)
        else if IsAlpha(f[0]) then Slots(acc.refs, acc.vals + 1)
        else acc;
      CountSlots(f[1..], next)
  }

  /** What the scan after a descriptor finds: the repeat count (0 when no digit follows) and
      the position of the last character the descriptor occupies. */
  datatype Repeat = Repeat(count: nat, last: nat)

  /** The digit-run scan after the descriptor at position `i`: the repeat count is the decimal
      value of the maximal run of digits right after it, and the scan position moves to the
      run's last digit. None when `std::stoi` throws because the run exceeds `int`. */
  function ScanRepeat(f: string, i: nat): (r: Option<Repeat>)
    requires i < |f|
    ensures r.Some? ==> i <= r.value.last < |f| && AllDigits(f[i + 1..r.value.last + 1])
    ensures r.Some? ==> r.value.last + 1 == |f| || !IsDigit(f[r.value.last + 1])
    ensures r.Some? && r.value.last == i ==> r.value.count == 0
    ensures r.Some? && r.value.last > i ==> r.value.count == Value(f[i + 1..r.value.last + 1])
    ensures r.None? ==> i + 1 < |f| && IsDigit(f[i + 1])
    ensures var e := DigitRunEnd(f, i + 1); r.None? <==> e > i + 1 && Value(f[i + 1..e]) > INT_MAX
    ensures r.Some? ==> r.value.count <= INT_MAX
  {
    var e := DigitRunEnd(f, i + 1);
    if e == i + 1 then Some(Repeat(0, i))
    else
      match Stoi(f[i + 1..e])
      case None => None
      case Some(n) => Some(Repeat(n, e - 1))
  }

  /** Without a digit after it, a descriptor has repeat count 0 and occupies only its own
      position. */
  lemma ScanRepeatWithoutDigits(f: string, i: nat)
    requires i < |f|
    requires i + 1 == |f| || !IsDigit(f[i + 1])
    ensures ScanRepeat(f, i) == Some(Repeat(0, i))
  {
  }

  /** The counts of the formats the bridge's callers use. */
  lemma FormatExamples()
    ensures ArgSize("") == 0 && ArgSize("f3") == 1 && ArgSize("sdf") == 3 && ArgSize("o") == 1
    ensures CountSlots("f3", Slots(0, 0)) == Slots(0, 1)
    ensures CountSlots("o", Slots(0, 0)) == Slots(1, 0)
    ensures CountSlots("sdf", Slots(0, 0)) == Slots(0, 3)
  {
  }
}

=== FILE: introspector.dfy ===
/** The identity registry (`nodes`, a map from each native object to its interpreter-side
    node) and the operations that create, look up, call, connect and delete through it. */
module Introspector {
  import opened Outcomes
  import opened Decimal
  import opened Format
  import opened Bridge
  import opened Marshal

  /** A result together with the registry after the operation. */
  datatype Step<T> = Step(result: T, nodes: Registry)

  /** `unordered_map::insert`: a key already present keeps its node. */
  function InsertIfAbsent(reg: Registry, k: Native, v: Dyn): (r: Registry)
    ensures r.Keys == reg.Keys + {k}
    ensures forall x :: x in reg ==> r[x] == reg[x]
    ensures k !in reg ==> r[k] == v
  {
    if k in reg then reg else reg[k := v]
  }

  /** The registry's iteration order lists every registered key; the hash map gives no other
      promise about it. */
  ghost predicate Enumerates(order: seq<Native>, reg: Registry) {
    forall k :: k in reg ==> k in order
  }

  /** No two native objects share a node. */
  ghost predicate Injective(reg: Registry) {
    forall a, b :: a in reg && b in reg && reg[a] == reg[b] ==> a == b
  }

  /** Every entry of `reg` is still in `reg'` with the same node. */
  ghost predicate Extends(reg: Registry, reg': Registry) {
    forall k :: k in reg ==> k in reg' && reg'[k] == reg[k]
  }

  /** `PyVtk_CreateVtkObject`: asks the interpreter for a new node of the class, unwraps its
      `vtkInstance` to the native address and registers the pair unless the address is
      already registered. Either interpreter call failing yields NULL and no change. The
      unwrapped address is registered and returned even when it is NULL. */
  function CreateVtkObject(rt: Runtime, reg: Registry, className: string): (s: Step<Native>)
    ensures Extends(reg, s.nodes)
    ensures s.nodes.Keys <= reg.Keys + {s.result}
    ensures rt.createVtkObject(className).None? ==> s == Step(NULL, reg)
    ensures rt.createVtkObject(className).Some? ==>
      var node := rt.createVtkObject(className).value;
      if rt.vtkInstance(node).None? then s == Step(NULL, reg)
      else
        && s.result == rt.pointerOf(rt.vtkInstance(node).value, className)
        && s.result in s.nodes
        && (s.result !in reg ==> s.nodes[s.result] == node)
  {
    match rt.createVtkObject(className)
    case None => Step(NULL, reg)
    case Some(node) =>
      match rt.vtkInstance(node)
      case None => Step(NULL, reg)
      case Some(instance) =>
        var p := rt.pointerOf(instance, className);
        Step(p, InsertIfAbsent(reg, p, node))
  }

  /** Creation keeps the registry one-to-one as long as the interpreter hands back a node no
      native object is registered with yet. Nothing in the bridge checks that. */
  lemma CreatePreservesInjective(rt: Runtime, reg: Registry, className: string)
    requires Injective(reg)
    requires rt.createVtkObject(className).Some? ==> rt.createVtkObject(className).value !in reg.Values
    ensures Injective(CreateVtkObject(rt, reg, className).nodes)
  {
    var s := CreateVtkObject(rt, reg, className);
    forall a, b | a in s.nodes && b in s.nodes && s.nodes[a] == s.nodes[b]
      ensures a == b
    {
      if a !in reg {
        assert s.nodes[a] !in reg.Values;
      }
    }
  }

  /** The tagged text a property read returns. */
  function Decorate(tag: string, text: string): string {
    tag + "::" + text
  }

  /** The first position of `::` in `s` at or after `i`. */
  function FindSeparator(s: string, i: nat): (r: Option<nat>)
    ensures r.Some? ==> i <= r.value && r.value + 1 < |s| && s[r.value] == ':' && s[r.value + 1] == ':'
    ensures r.Some? ==> forall j :: i <= j < r.value ==> !(s[j] == ':' && s[j + 1] == ':')
    ensures r.None? ==> forall j :: i <= j && j + 1 < |s| ==> !(s[j] == ':' && s[j + 1] == ':')
    decreases |s| - i
  {
    if i + 1 >= |s| then None
    else if s[i] == ':' && s[i + 1] == ':' then Some(i)
    else FindSeparator(s, i + 1)
  }

  /** How a native caller reads a tagged property text back: the tag before the first `::`
      and the value after it. */
  function SplitDecorated(s: string): Option<(string, string)> {
    match FindSeparator(s, 0)
    case None => None
    case Some(k) => Some((s[..k], s[k + 2..]))
  }

  /** A tag without a colon is recovered, together with the value text, from the tagged
      text. */
  lemma SplitDecorate(tag: string, text: string)
    requires ':' !in tag
    ensures SplitDecorated(Decorate(tag, text)) == Some((tag, text))
  {
    var s := Decorate(tag, text);
    assert s[|tag|] == ':' && s[|tag| + 1] == ':';
    var r := FindSeparator(s, 0);
    if r.None? {
      assert false;
    } else if r.value != |tag| {
      assert false;
    }
    assert s[..|tag|] == tag;
    assert s[|tag| + 2..] == text;
  }

  /** `PyVtk_GetVtkObjectProperty`: for a registered object, reads the property through the
      interpreter and returns its text tagged with the expected type, `tag::value`; NULL when
      the object is unknown, the read fails or the result is not text. */
  function GetVtkObjectProperty(rt: Runtime, reg: Registry, obj: Native, name: string,
                                expectedType: string): (r: Option<string>)
    ensures obj !in reg ==> r == None
    ensures r.Some? <==>
      obj in reg && rt.getAttribute(reg[obj], name).Some? &&
      rt.asString(rt.getAttribute(reg[obj], name).value).Some?
    ensures r.Some? ==> r.value == Decorate(expectedType, rt.asString(rt.getAttribute(reg[obj], name).value).value)
  {
    if obj !in reg then None
    else
      match rt.getAttribute(reg[obj], name)
      case None => None
      case Some(v) =>
        match rt.asString(v)
        case None => None
        case Some(text) => Some(Decorate(expectedType, text))
  }

  /** A native caller splitting a property read at the first `::` gets back the expected type
      it asked for and the interpreter's text of the value, provided the type has no colon. */
  lemma PropertyReadSplits(rt: Runtime, reg: Registry, obj: Native, name: string, expectedType: string)
    requires ':' !in expectedType
    requires GetVtkObjectProperty(rt, reg, obj, name, expectedType).Some?
    ensures SplitDecorated(GetVtkObjectProperty(rt, reg, obj, name, expectedType).value) ==
      Some((expectedType, rt.asString(rt.getAttribute(reg[obj], name).value).value))
  {
    SplitDecorate(expectedType, rt.asString(rt.getAttribute(reg[obj], name).value).value);
  }

  /** What a property write came to; the bridge itself returns nothing. */
  datatype Attempt = Skipped | Failed | Done

  /** `PyVtk_SetVtkObjectProperty`: hands the property name, format and value text to the
      interpreter's setter for a registered object; an unknown object is silently skipped and
      a failing setter only prints a diagnostic. */
  function SetVtkObjectProperty(rt: Runtime, reg: Registry, obj: Native, name: string,
                                format: string, value: string): (r: Attempt)
    ensures obj !in reg <==> r == Skipped
    ensures r == Done <==> obj in reg && rt.setAttribute(reg[obj], name, format, value).Some?
  {
    if obj !in reg then Skipped
    else if rt.setAttribute(reg[obj], name, format, value).None? then Failed
    else Done
  }

  /** `PyVtk_GetVtkObjectDescriptor`: the interpreter's description text of a registered
      object; NULL when the object is unknown or either call fails. */
  function GetVtkObjectDescriptor(rt: Runtime, reg: Registry, obj: Native): (r: Option<string>)
    ensures obj !in reg ==> r == None
    ensures r.Some? <==>
      obj in reg && rt.describe(reg[obj]).Some? && rt.asString(rt.describe(reg[obj]).value).Some?
    ensures r.Some? ==> rt.asString(rt.describe(reg[obj]).value) == r
  {
    if obj !in reg then None
    else
      match rt.describe(reg[obj])
      case None => None
      case Some(d) => rt.asString(d)
  }

  /** `PyVtk_DeleteVtkObject`: for a registered object, runs the interpreter's delete hook and,
      only when it succeeds, removes exactly that entry. */
  function DeleteVtkObject(rt: Runtime, reg: Registry, obj: Native): (s: Step<bool>)
    ensures s.result <==> obj in reg && rt.deleteNode(reg[obj]).Some?
    ensures s.result ==> s.nodes == reg - {obj}
    ensures !s.result ==> s.nodes == reg
  {
    if obj !in reg then Step(false, reg)
    else if rt.deleteNode(reg[obj]).None? then Step(false, reg)
    else Step(true, reg - {obj})
  }

  /** After a successful delete the object is unknown: every other entry is untouched, and
      deleting it again, whatever the interpreter would say, returns false and changes
      nothing. */
  lemma DeleteIsFinal(rt: Runtime, rt': Runtime, reg: Registry, obj: Native)
    requires DeleteVtkObject(rt, reg, obj).result
    ensures var reg' := DeleteVtkObject(rt, reg, obj).nodes;
      && obj !in reg'
      && (forall k :: k in reg && k != obj ==> k in reg' && reg'[k] == reg[k])
      && DeleteVtkObject(rt', reg', obj) == Step(false, reg')
  {
  }

  /** `PyVtk_GetOutputPort`: the native address of a registered object's output port, which
      is not registered; NULL when the object is unknown or the interpreter call fails. */
  function GetOutputPort(rt: Runtime, reg: Registry, obj: Native): (p: Native)
    ensures obj !in reg ==> p == NULL
    ensures obj in reg && rt.outputPort(reg[obj]).None? ==> p == NULL
    ensures obj in reg && rt.outputPort(reg[obj]).Some? ==>
      p == rt.pointerOf(rt.outputPort(reg[obj]).value, "vtkAlgorithmOutput")
  {
    if obj !in reg then NULL
    else
      match rt.outputPort(reg[obj])
      case None => NULL
      case Some(port) => rt.pointerOf(port, "vtkAlgorithmOutput")
  }

  /** The `SetInputConnection(port)` call made on a consumer. */
  datatype Link = Link(consumer: Native, port: Native)

  /** `PyVtk_ConnectVtkObject`: true, with the consumer's input set to the producer's output
      port, when the producer is registered and its port can be obtained; false, with no call
      on the consumer, otherwise. */
  function ConnectVtkObject(rt: Runtime, reg: Registry, producer: Native, consumer: Native): (c: Option<Link>)
    ensures c.Some? <==> producer in reg && rt.outputPort(reg[producer]).Some?
    ensures c.Some? ==> c.value == Link(consumer, GetOutputPort(rt, reg, producer))
  {
    if producer !in reg then None
    else
      match rt.outputPort(reg[producer])
      case None => None
      case Some(port) => Some(Link(consumer, rt.pointerOf(port, "vtkAlgorithmOutput")))
  }

  /** The argument tuple a single call on a registered object passes. */
  function CallArgs(rt: Runtime, reg: Registry, format: string, refs: seq<Native>, vals: seq<Text>): Outcome<Tuple> {
    ArgvTuple(rt, reg, format, ArgSize(format), refs, vals)
  }

  /** `PyVtk_ObjectMethod`: for a registered object, marshals the arguments and calls the
      method through the interpreter, returning the raw result without registering it. A
      tuple with a slot left NULL is a fault: the interpreter reads the items it is given. */
  function ObjectMethod(rt: Runtime, reg: Registry, obj: Native, methodName: string, format: string,
                        refs: seq<Native>, vals: seq<Text>): (r: Outcome<Dyn>)
    ensures obj !in reg ==> r == Null
    ensures obj in reg && !CallArgs(rt, reg, format, refs, vals).Ok? ==>
      r == CallArgs(rt, reg, format, refs, vals).Propagate()
    ensures obj in reg && CallArgs(rt, reg, format, refs, vals).Ok? && !Filled(CallArgs(rt, reg, format, refs, vals).value) ==>
      r == Fault(UnfilledTupleSlot)
    ensures r.Ok? <==>
      obj in reg && CallArgs(rt, reg, format, refs, vals).Ok? && Filled(CallArgs(rt, reg, format, refs, vals).value) &&
      rt.instanceCall(reg[obj], methodName, CallArgs(rt, reg, format, refs, vals).value).Some?
    ensures r.Ok? ==>
      rt.instanceCall(reg[obj], methodName, CallArgs(rt, reg, format, refs, vals).value) == Some(r.value)
    ensures (obj in reg && CallArgs(rt, reg, format, refs, vals).Ok? && Filled(CallArgs(rt, reg, format, refs, vals).value) &&
             rt.instanceCall(reg[obj], methodName, CallArgs(rt, reg, format, refs, vals).value).None?) ==>
      r == Null
  {
    if obj !in reg then Null
    else
      match CallArgs(rt, reg, format, refs, vals)
      case Null => Null
      case Fault(c) => Fault(c)
      case Ok(args) =>
        if !Filled(args) then Fault(UnfilledTupleSlot)
        else
          match rt.instanceCall(reg[obj], methodName, args)
          case None => Null
          case Some(v) => Ok(v)
  }

  /** Without object descriptors in the format, a call depends on the registry only through
      the target's node: two registries that agree on the target make the same call. */
  lemma ObjectMethodIgnoresRegistry(rt: Runtime, reg1: Registry, reg2: Registry, obj: Native, methodName: string,
                                    format: string, refs: seq<Native>, vals: seq<Text>)
    requires NoObjectTags(format)
    requires obj in reg1 <==> obj in reg2
    requires obj in reg1 ==> reg1[obj] == reg2[obj]
    ensures ObjectMethod(rt, reg1, obj, methodName, format, refs, vals) ==
      ObjectMethod(rt, reg2, obj, methodName, format, refs, vals)
  {
    ArgvTupleIgnoresRegistry(rt, reg1, reg2, format, ArgSize(format), refs, vals);
  }

  /** A call with format `"ss2s"` on a registered object never reaches the interpreter: the
      repeat run leaves slot 1 of its tuple NULL. */
  lemma SkippedSlotStopsCall(rt: Runtime, reg: Registry, obj: Native, methodName: string,
                             refs: seq<Native>, a: string, b: string)
    requires obj in reg
    ensures ObjectMethod(rt, reg, obj, methodName, "ss2s", refs, [Some(a), Some(b)]) == Fault(UnfilledTupleSlot)
  {
    RepeatSkipsSlotAndDescriptor(rt, reg, refs, a, b);
    var args := CallArgs(rt, reg, "ss2s", refs, [Some(a), Some(b)]);
    assert args.value[1] == None;
  }

  /** Once deleted, an object is unknown to every operation on it: writes are skipped, reads
      and descriptions are NULL, and calls on it are NULL. */
  lemma DeletedObjectIsUnknown(rt: Runtime, reg: Registry, obj: Native, name: string, format: string,
                               value: string, methodName: string, refs: seq<Native>, vals: seq<Text>)
    requires DeleteVtkObject(rt, reg, obj).result
    ensures var after := DeleteVtkObject(rt, reg, obj).nodes;
      && SetVtkObjectProperty(rt, after, obj, name, format, value) == Skipped
      && GetVtkObjectProperty(rt, after, obj, name, format) == None
      && GetVtkObjectDescriptor(rt, after, obj) == None
      && ObjectMethod(rt, after, obj, methodName, format, refs, vals) == Null
  {
  }

  /** The first key in iteration order whose node is `v`. */
  function FindNode(order: seq<Native>, reg: Registry, v: Dyn): (r: Option<Native>)
    ensures r.Some? ==> r.value in reg && reg[r.value] == v
    ensures r.None? ==> forall k :: k in order && k in reg ==> reg[k] != v
  {
    if order == [] then None
    else if order[0] in reg && reg[order[0]] == v then Some(order[0])
    else FindNode(order[1..], reg, v)
  }

  /** `PyVtk_ObjectMethodAsVtkObject`: calls the method and resolves its raw result to a native
      object. A result that already is some registered node yields that node's key and changes
      nothing; otherwise the interpreter wraps it in a new node, the toolkit unwraps it to its
      address, and the pair is inserted unless the address is already registered. */
  function ObjectMethodAsVtkObject(rt: Runtime, reg: Registry, order: seq<Native>, obj: Native,
                                   methodName: string, className: string, format: string,
                                   refs: seq<Native>, vals: seq<Text>): (s: Step<Outcome<Native>>)
    requires Enumerates(order, reg)
    ensures Extends(reg, s.nodes)
    ensures !s.result.Ok? ==> s.nodes == reg
    ensures s.result.Ok? ==> s.result.value in s.nodes && s.nodes.Keys <= reg.Keys + {s.result.value}
    ensures !ObjectMethod(rt, reg, obj, methodName, format, refs, vals).Ok? ==>
      s.result == ObjectMethod(rt, reg, obj, methodName, format, refs, vals).Propagate()
    ensures ObjectMethod(rt, reg, obj, methodName, format, refs, vals).Ok? ==>
      var v := ObjectMethod(rt, reg, obj, methodName, format, refs, vals).value;
      if v in reg.Values then s.nodes == reg && s.result.Ok? && reg[s.result.value] == v
      else
        && (rt.createWithInstance(className, v).None? ==> s == Step(Null, reg))
        && (rt.createWithInstance(className, v).Some? ==>
              s == Step(Ok(rt.pointerOf(v, className)),
                        InsertIfAbsent(reg, rt.pointerOf(v, className), rt.createWithInstance(className, v).value)))
  {
    match ObjectMethod(rt, reg, obj, methodName, format, refs, vals)
    case Null => Step(Null, reg)
    case Fault(c) => Step(Fault(c), reg)
    case Ok(v) =>
      match FindNode(order, reg, v)
      case Some(k) => Step(Ok(k), reg)
      case None =>
        match rt.createWithInstance(className, v)
        case None => Step(Null, reg)
        case Some(node) =>
          var p := rt.pointerOf(v, className);
          Step(Ok(p), InsertIfAbsent(reg, p, node))
  }

  /** Repeating a successful resolving call without object arguments, against the same
      interpreter, changes nothing and resolves to the same node; on a one-to-one registry it
      returns the same native object. */
  lemma AsVtkObjectIsIdempotent(rt: Runtime, reg: Registry, order1: seq<Native>, order2: seq<Native>,
                                obj: Native, methodName: string, className: string, format: string,
                                refs: seq<Native>, vals: seq<Text>)
    requires Enumerates(order1, reg) && NoObjectTags(format)
    requires ObjectMethodAsVtkObject(rt, reg, order1, obj, methodName, className, format, refs, vals).result.Ok?
    requires Enumerates(order2, ObjectMethodAsVtkObject(rt, reg, order1, obj, methodName, className, format, refs, vals).nodes)
    ensures var s1 := ObjectMethodAsVtkObject(rt, reg, order1, obj, methodName, className, format, refs, vals);
      var s2 := ObjectMethodAsVtkObject(rt, s1.nodes, order2, obj, methodName, className, format, refs, vals);
      && s2.nodes == s1.nodes
      && s2.result.Ok?
      && s1.nodes[s2.result.value] == s1.nodes[s1.result.value]
      && (Injective(reg) ==> s2.result == s1.result)
  {
    var s1 := ObjectMethodAsVtkObject(rt, reg, order1, obj, methodName, className, format, refs, vals);
    var reg1 := s1.nodes;
    var call := ObjectMethod(rt, reg, obj, methodName, format, refs, vals);
    assert call.Ok?;
    var v := call.value;
    ArgvTupleIgnoresRegistry(rt, reg, reg1, format, ArgSize(format), refs, vals);
    assert ObjectMethod(rt, reg1, obj, methodName, format, refs, vals) == call;
    var s2 := ObjectMethodAsVtkObject(rt, reg1, order2, obj, methodName, className, format, refs, vals);
    if v in reg.Values {
      assert reg1 == reg;
      var k1 := s1.result.value;
      var k2 := s2.result.value;
      assert reg[k1] == v && reg[k2] == v;
    } else {
      var node := rt.createWithInstance(className, v).value;
      var p := rt.pointerOf(v, className);
      assert reg1 == InsertIfAbsent(reg, p, node);
      if v in reg1.Values {
        var k :| k in reg1 && reg1[k] == v;
        assert k == p;
        assert s2.result.Ok? && reg1[s2.result.value] == v;
        assert s2.result.value == p;
      }
    }
  }

  /** The entries whose delete hook fails; they outlive teardown. */
  function Survivors(rt: Runtime, reg: Registry): (r: Registry)
    ensures r.Keys <= reg.Keys
  {
    map k | k in reg && rt.deleteNode(reg[k]).None? :: reg[k]
  }

  /** Deleting every key of `order` in turn, starting from `cur`. */
  function Teardown(rt: Runtime, cur: Registry, order: seq<Native>): Registry {
    if order == [] then cur
    else Teardown(rt, DeleteVtkObject(rt, cur, order[0]).nodes, order[1..])
  }

  /** Teardown keeps exactly the entries it never tried to delete and those whose delete hook
      failed, whatever the order. */
  lemma {:induction false} TeardownKeeps(rt: Runtime, cur: Registry, order: seq<Native>)
    ensures Teardown(rt, cur, order) ==
      map k | k in cur && (k !in order || rt.deleteNode(cur[k]).None?) :: cur[k]
  {
    var m := map k | k in cur && (k !in order || rt.deleteNode(cur[k]).None?) :: cur[k];
    if order == [] {
      assert m == cur;
    } else {
      var x := order[0];
      var rest := order[1..];
      var cur' := DeleteVtkObject(rt, cur, x).nodes;
      TeardownKeeps(rt, cur', rest);
      var m' := map k | k in cur' && (k !in rest || rt.deleteNode(cur'[k]).None?) :: cur'[k];
      assert forall k :: k in order <==> k == x || k in rest;
      assert m'.Keys == m.Keys;
      assert m' == m;
    }
  }

  /** `PyVtk_FinalizeIntrospector`: runs the delete operation on every key registered at the
      start, in iteration order. (The source erases from the map it is ranging over; this is
      the evidently intended "delete every key present at the start".) The registry ends up
      holding exactly the entries whose delete hook failed. */
  function FinalizeIntrospector(rt: Runtime, reg: Registry, order: seq<Native>): (r: Registry)
    requires Enumerates(order, reg)
    ensures r == Survivors(rt, reg)
    ensures forall k :: k in reg && rt.deleteNode(reg[k]).Some? ==> k !in r
  {
    TeardownKeeps(rt, reg, order);
    assert (map k | k in reg && (k !in order || rt.deleteNode(reg[k]).None?) :: reg[k]) == Survivors(rt, reg);
    Teardown(rt, reg, order)
  }
}

=== FILE: marshal.dfy ===
/** `PyVtk_ArgvTuple`: builds the positional argument tuple of one call from a format, a
    vector of native references and a vector of value strings.

    Three properties of the code are kept as written. The reference and value counters start
    at 0 for every descriptor, so every descriptor reads reference 0 or value 0. One index is
    both the format position and the tuple slot, so a digit run moves the slot that is
    written. The vectors are indexed without a bounds check. */
module Marshal {
  import opened Outcomes
  import opened Decimal
  import opened Format
  import opened Bridge

  predicate IsScalarTag(c: char) { c in "sSdDfFbB" }

  /** True when an argument is of the kind a scalar descriptor letter produces. */
  predicate KindOf(def: char, a: Arg) {
    if def in "sS" then a.Str?
    else if def in "dD" then a.Int?
    else if def in "fF" then a.Flt?
    else if def in "bB" then a.Bool?
    else false
  }

  /** One value string decoded per its descriptor letter: `s` keeps the text, `d` reads a
      `long`, `f` a double, `b` is true when the `long` read is nonzero; another letter is the
      "format not recognised" NULL. A conversion that throws is a fault. */
  function DecodeScalar(rt: Runtime, def: char, text: string): (r: Outcome<Arg>)
    ensures r.Null? <==> !IsScalarTag(def)
    ensures r.Ok? ==> KindOf(def, r.value)
    ensures def in "sS" ==> r == Ok(Str(text))
    ensures def in "dDbB" ==> (r.Ok? <==> Stol(text).Some?)
    ensures def in "dD" && r.Ok? ==> r.value.n == Stol(text).value
    ensures def in "bB" && r.Ok? ==> (r.value.b <==> Stol(text).value != 0)
    ensures def in "fF" ==> (r.Ok? <==> rt.stod(text).Some?)
    ensures def in "fF" && r.Ok? ==> r.value == Flt(rt.stod(text).value)
    ensures def in "dDbBfF" && !r.Ok? ==> r == Fault(ConversionThrows(text))
  {
    match def
    case 's' => Ok(Str(text))
    case 'S' => Ok(Str(text))
    case 'd' => DecodeLong(text, false)
    case 'D' => DecodeLong(text, false)
    case 'b' => DecodeLong(text, true)
    case 'B' => DecodeLong(text, true)
    case 'f' => DecodeDouble(rt, text)
    case 'F' => DecodeDouble(rt, text)
    case _ => Null
  }

  function DecodeLong(text: string, asBool: bool): Outcome<Arg> {
    match Stol(text)
    case None => Fault(ConversionThrows(text))
    case Some(n) => if asBool then Ok(Bool(n != 0)) else Ok(Int(n))
  }

  function DecodeDouble(rt: Runtime, text: string): Outcome<Arg> {
    match rt.stod(text)
    case None => Fault(ConversionThrows(text))
    case Some(x) => Ok(Flt(x))
  }

  /** The descriptor letter a string, integer or boolean argument is written with. */
  function ScalarTag(a: Arg): char
    requires a.Str? || a.Int? || a.Bool?
  {
    if a.Str? then 's' else if a.Int? then 'd' else 'b'
  }

  /** The value string a native caller writes for a string, integer or boolean argument. */
  function ScalarText(a: Arg): string
    requires a.Str? || a.Int? || a.Bool?
  {
    match a
    case Str(s) => s
    case Int(n) => ShowLong(n)
    case Bool(b) => ShowLong(if b then 1 else 0)
  }

  /** Decoding inverts encoding for every string, every `long` and both booleans. */
  lemma DecodeScalarText(rt: Runtime, a: Arg)
    requires a.Str? || (a.Int? && LONG_MIN <= a.n <= LONG_MAX) || a.Bool?
    ensures DecodeScalar(rt, ScalarTag(a), ScalarText(a)) == Ok(a)
  {
    match a
    case Str(_) =>
    case Int(n) => StolShowLong(n);
    case Bool(b) => StolShowLong(if b then 1 else 0);
  }

  /** The values `j .. spec-1` of a repeated descriptor, decoded one by one and packed into a
      group; the value vector is indexed without a bounds check. */
  function DecodeGroup(rt: Runtime, def: char, vals: seq<Text>, spec: nat, j: nat): (r: Outcome<seq<Arg>>)
    requires j <= spec
    ensures r.Ok? ==> |r.value| == spec - j
    ensures (spec <= |vals| && forall k :: j <= k < spec ==>
      vals[k].Some? && DecodeScalar(rt, def, vals[k].value).Ok?) ==> r.Ok?
    decreases spec - j
  {
    if j == spec then Ok([])
    else if j >= |vals| then Fault(ValueIndexOutOfRange(j))
    else if vals[j].None? then (if IsScalarTag(def) then Fault(NullValueText(j)) else Null)
    else
      match DecodeScalar(rt, def, vals[j].value)
      case Null => Null
      case Fault(c) => Fault(c)
      case Ok(a) =>
        match DecodeGroup(rt, def, vals, spec, j + 1)
        case Null => Null
        case Fault(c) => Fault(c)
        case Ok(rest) => Ok([a] + rest)
  }

  /** A group holds exactly the decoded values `j .. spec-1`, in order: it consumes `spec`
      values, never fewer. */
  lemma {:induction false} DecodeGroupYields(rt: Runtime, def: char, vals: seq<Text>, spec: nat, j: nat)
    requires j <= spec
    ensures DecodeGroup(rt, def, vals, spec, j).Ok? && j < spec ==> spec <= |vals|
    ensures DecodeGroup(rt, def, vals, spec, j).Ok? ==> forall k :: j <= k < spec ==>
      k < |vals| && vals[k].Some? &&
      DecodeScalar(rt, def, vals[k].value) == Ok(DecodeGroup(rt, def, vals, spec, j).value[k - j])
    decreases spec - j
  {
    var r := DecodeGroup(rt, def, vals, spec, j);
    if r.Ok? && j < spec {
      var d := DecodeScalar(rt, def, vals[j].value);
      var rest := DecodeGroup(rt, def, vals, spec, j + 1);
      assert r.value == [d.value] + rest.value;
      DecodeGroupYields(rt, def, vals, spec, j + 1);
      forall k | j <= k < spec
        ensures k < |vals| && vals[k].Some? && DecodeScalar(rt, def, vals[k].value) == Ok(r.value[k - j])
      {
        if k > j {
          assert r.value[k - j] == rest.value[k - (j + 1)];
        }
      }
    }
  }

  /** What item `k` of a group comes to on its own: a fault past the end of the value
      vector, a fault on a NULL value text for a scalar letter (NULL for any other letter),
      otherwise the value decoded. */
  function ItemOutcome(rt: Runtime, def: char, vals: seq<Text>, k: nat): Outcome<Arg> {
    if k >= |vals| then Fault(ValueIndexOutOfRange(k))
    else if vals[k].None? then (if IsScalarTag(def) then Fault(NullValueText(k)) else Null)
    else DecodeScalar(rt, def, vals[k].value)
  }

  /** A group is built exactly when every item `j .. spec-1` resolves on its own, and
      otherwise its outcome is that of the first item that does not. */
  lemma {:induction false} DecodeGroupFailure(rt: Runtime, def: char, vals: seq<Text>, spec: nat, j: nat)
    requires j <= spec
    ensures DecodeGroup(rt, def, vals, spec, j).Ok? <==>
      forall k :: j <= k < spec ==> ItemOutcome(rt, def, vals, k).Ok?
    ensures forall k :: (j <= k < spec && !ItemOutcome(rt, def, vals, k).Ok? &&
        forall n :: j <= n < k ==> ItemOutcome(rt, def, vals, n).Ok?) ==>
      DecodeGroup(rt, def, vals, spec, j) == ItemOutcome(rt, def, vals, k).Propagate()
    decreases spec - j
  {
    if j < spec {
      DecodeGroupFailure(rt, def, vals, spec, j + 1);
      var d := ItemOutcome(rt, def, vals, j);
      if d.Ok? {
        assert DecodeGroup(rt, def, vals, spec, j).Ok? <==> DecodeGroup(rt, def, vals, spec, j + 1).Ok?;
        assert !DecodeGroup(rt, def, vals, spec, j).Ok? ==>
          DecodeGroup(rt, def, vals, spec, j) == DecodeGroup(rt, def, vals, spec, j + 1);
      } else {
        assert DecodeGroup(rt, def, vals, spec, j) == d.Propagate();
      }
    }
  }

  /** The argument one descriptor yields, with the counters at 0 as the code has them. An
      object descriptor resolves reference 0 to its registered node, else to the toolkit's
      wrapper, else fails. A scalar descriptor first checks value 0 for NULL (reading it
      without a bounds check), then decodes value 0, or values `0 .. spec-1` into a group
      when a repeat count is present. */
  function DescriptorArg(rt: Runtime, reg: Registry, def: char, spec: nat,
                         refs: seq<Native>, vals: seq<Text>): (r: Outcome<Arg>)
    ensures IsObjectTag(def) ==>
      (r.Ok? <==> |refs| > 0 && (refs[0] in reg || rt.wrapPointer(refs[0]).Some?))
    ensures IsObjectTag(def) && r.Ok? ==>
      r.value == Obj(if refs[0] in reg then reg[refs[0]] else rt.wrapPointer(refs[0]).value)
    ensures IsObjectTag(def) && |refs| == 0 ==> r == Fault(ReferenceIndexOutOfRange(0))
    ensures IsObjectTag(def) && |refs| > 0 && refs[0] !in reg && rt.wrapPointer(refs[0]).None? ==> r == Null
    ensures !IsObjectTag(def) && |vals| == 0 ==> r == Fault(ValueIndexOutOfRange(0))
    ensures !IsObjectTag(def) && |vals| > 0 && vals[0].None? ==> r == Null
    ensures !IsObjectTag(def) && r.Ok? ==> |vals| > 0 && vals[0].Some?
    ensures !IsObjectTag(def) && spec == 0 && r.Ok? ==> DecodeScalar(rt, def, vals[0].value) == r
    ensures !IsObjectTag(def) && |vals| > 0 && vals[0].Some? && spec == 0 ==> r == DecodeScalar(rt, def, vals[0].value)
    ensures (!IsObjectTag(def) && |vals| > 0 && vals[0].Some? && spec > 0 && spec <= |vals| &&
             forall j :: 0 <= j < spec ==> vals[j].Some? && DecodeScalar(rt, def, vals[j].value).Ok?) ==>
      r.Ok?
    ensures !IsObjectTag(def) && spec > 0 && r.Ok? ==>
      r.value.Group? && |r.value.items| == spec && spec <= |vals| &&
      forall j :: 0 <= j < spec ==>
        vals[j].Some? && DecodeScalar(rt, def, vals[j].value) == Ok(r.value.items[j])
  {
    if IsObjectTag(def) then
      if |refs| == 0 then Fault(ReferenceIndexOutOfRange(0))
      else if refs[0] in reg then Ok(Obj(reg[refs[0]]))
      else
        match rt.wrapPointer(refs[0])
        case None => Null
        case Some(w) => Ok(Obj(w))
    else if |vals| == 0 then Fault(ValueIndexOutOfRange(0))
    else if vals[0].None? then Null
    else if spec == 0 then DecodeScalar(rt, def, vals[0].value)
    else
      match DecodeGroup(rt, def, vals, spec, 0)
      case Null => Null
      case Fault(c) => Fault(c)
      case Ok(items) =>
        DecodeGroupYields(rt, def, vals, spec, 0);
        Ok(Group(items))
  }

  /** How each descriptor letter and repeat count becomes an argument; the marshaler uses
      `DescriptorArg` over the call's references and values. */
  type Decoder = (char, nat) -> Outcome<Arg>

  function Descriptors(rt: Runtime, reg: Registry, refs: seq<Native>, vals: seq<Text>): Decoder {
    (def: char, spec: nat) => DescriptorArg(rt, reg, def, spec, refs, vals)
  }

  /** The marshaling loop from scan position `i` with the tuple filled so far. The descriptor
      at `i` is decoded, the scan position moves over its digit run, and the argument is
      written at the slot the moved position names. */
  function Fill(decode: Decoder, f: string, argc: nat, i: nat, t: Tuple): (r: Outcome<Tuple>)
    requires argc <= |f| && i <= argc && |t| == argc
    ensures r.Ok? ==> |r.value| == argc
    ensures r.Ok? ==> forall k :: 0 <= k < i ==> r.value[k] == t[k]
    decreases argc - i
  {
    if i == argc then Ok(t)
    else
      match ScanRepeat(f, i)
      case None => Fault(RepeatCountThrows(i))
      case Some(rep) =>
        match decode(f[i], rep.count)
        case Null => Null
        case Fault(c) => Fault(c)
        case Ok(a) =>
          if rep.last >= argc then Fault(TupleSlotOutOfRange(rep.last))
          else Fill(decode, f, argc, rep.last + 1, t[rep.last := Some(a)])
  }

  /** `PyVtk_ArgvTuple(format, argc, references, values)`: a tuple of `argc` slots. */
  function ArgvTuple(rt: Runtime, reg: Registry, f: string, argc: nat,
                     refs: seq<Native>, vals: seq<Text>): (r: Outcome<Tuple>)
    requires argc <= |f|
    ensures r.Ok? ==> |r.value| == argc
  {
    Fill(Descriptors(rt, reg, refs, vals), f, argc, 0, seq(argc, _ => None))
  }

  /** A descriptor the marshaling loop reaches: its scan position and the repeat run read
      there. */
  datatype Visit = Visit(pos: nat, rep: Repeat)

  /** The descriptors the loop reaches from scan position `i` and writes, in order, each one
      after the slot its predecessor wrote. The scan ends at `argc`, at a repeat count that
      throws, or at a slot past the end of the tuple. */
  function Reached(f: string, argc: nat, i: nat): (vs: seq<Visit>)
    requires argc <= |f| && i <= argc
    ensures forall v :: v in vs ==> i <= v.pos <= v.rep.last < argc
    ensures forall n :: 0 <= n < |vs| ==> ScanRepeat(f, vs[n].pos) == Some(vs[n].rep)
    ensures forall n :: 0 < n < |vs| ==> vs[n - 1].rep.last < vs[n].pos
    decreases argc - i
  {
    if i == argc then []
    else
      match ScanRepeat(f, i)
      case None => []
      case Some(rep) =>
        if rep.last >= argc then []
        else
          var rest := Reached(f, argc, rep.last + 1);
          assert rest != [] ==> rest[0] in rest;
          [Visit(i, rep)] + rest
  }

  /** The tuple slots the reached descriptors write. */
  function Written(vs: seq<Visit>): set<nat> {
    set v | v in vs :: v.rep.last
  }

  /** One turn of a marshaling loop that succeeds: the descriptor at `i` scans, resolves and
      fits, and the rest of the loop starts after the slot it writes. */
  lemma FillStepOk(decode: Decoder, f: string, argc: nat, i: nat, t: Tuple)
    requires argc <= |f| && i < argc && |t| == argc
    requires Fill(decode, f, argc, i, t).Ok?
    ensures ScanRepeat(f, i).Some? && ScanRepeat(f, i).value.last < argc
    ensures var rep := ScanRepeat(f, i).value;
      && decode(f[i], rep.count).Ok?
      && Reached(f, argc, i) == [Visit(i, rep)] + Reached(f, argc, rep.last + 1)
      && Fill(decode, f, argc, i, t) ==
         Fill(decode, f, argc, rep.last + 1, t[rep.last := Some(decode(f[i], rep.count).value)])
  {
  }

  lemma WrittenCons(v: Visit, rest: seq<Visit>)
    ensures Written([v] + rest) == {v.rep.last} + Written(rest)
  {
    assert forall w :: w in [v] + rest <==> w == v || w in rest;
  }

  /** A marshaling loop that succeeds has scanned up to `argc`: the last descriptor it reaches
      writes slot `argc - 1`. */
  lemma {:induction false} FillReachesEnd(decode: Decoder, f: string, argc: nat, i: nat, t: Tuple)
    requires argc <= |f| && i <= argc && |t| == argc
    requires Fill(decode, f, argc, i, t).Ok?
    ensures var vs := Reached(f, argc, i);
      (if vs == [] then i else vs[|vs| - 1].rep.last + 1) == argc
    decreases argc - i
  {
    if i < argc {
      FillStepOk(decode, f, argc, i, t);
      var rep := ScanRepeat(f, i).value;
      FillReachesEnd(decode, f, argc, rep.last + 1, t[rep.last := Some(decode(f[i], rep.count).value)]);
    }
  }

  /** A marshaling loop that succeeds writes, for every descriptor it reaches, that
      descriptor's argument at the slot its repeat run ends on. */
  lemma {:induction false} FillWritesReached(decode: Decoder, f: string, argc: nat, i: nat, t: Tuple)
    requires argc <= |f| && i <= argc && |t| == argc
    requires Fill(decode, f, argc, i, t).Ok?
    ensures forall v :: v in Reached(f, argc, i) ==>
      decode(f[v.pos], v.rep.count).Ok? &&
      Fill(decode, f, argc, i, t).value[v.rep.last] == Some(decode(f[v.pos], v.rep.count).value)
    decreases argc - i
  {
    if i < argc {
      FillStepOk(decode, f, argc, i, t);
      var rep := ScanRepeat(f, i).value;
      var t' := t[rep.last := Some(decode(f[i], rep.count).value)];
      FillWritesReached(decode, f, argc, rep.last + 1, t');
      assert Fill(decode, f, argc, i, t).value[rep.last] == t'[rep.last];
      assert forall v :: v in Reached(f, argc, i) ==> v == Visit(i, rep) || v in Reached(f, argc, rep.last + 1);
    }
  }

  /** A marshaling loop that succeeds leaves every slot from `i` on that no reached
      descriptor writes as it was. */
  lemma {:induction false} FillKeepsUnwritten(decode: Decoder, f: string, argc: nat, i: nat, t: Tuple)
    requires argc <= |f| && i <= argc && |t| == argc
    requires Fill(decode, f, argc, i, t).Ok?
    ensures forall s :: i <= s < argc && s !in Written(Reached(f, argc, i)) ==>
      Fill(decode, f, argc, i, t).value[s] == t[s]
    decreases argc - i
  {
    if i < argc {
      FillStepOk(decode, f, argc, i, t);
      var rep := ScanRepeat(f, i).value;
      var t' := t[rep.last := Some(decode(f[i], rep.count).value)];
      FillKeepsUnwritten(decode, f, argc, rep.last + 1, t');
      WrittenCons(Visit(i, rep), Reached(f, argc, rep.last + 1));
    }
  }

  /** The reached descriptors, scanned from `i`, end exactly at `argc`: the scan was not cut
      short by a throwing repeat count or a slot past the end. */
  predicate ReachesEnd(vs: seq<Visit>, i: nat, argc: nat) {
    ScanEnd(vs, i) == argc
  }

  /** Where a scan from `i` that reached `vs` stands after them. */
  function ScanEnd(vs: seq<Visit>, i: nat): nat {
    if vs == [] then i else vs[|vs| - 1].rep.last + 1
  }

  /** Every reached descriptor resolves to an argument. */
  predicate AllResolve(decode: Decoder, f: string, vs: seq<Visit>) {
    forall v :: v in vs ==> v.pos < |f| && decode(f[v.pos], v.rep.count).Ok?
  }

  /** One turn of the loop whose descriptor scans, resolves and fits. */
  lemma FillUnfolds(decode: Decoder, f: string, argc: nat, i: nat, t: Tuple)
    requires argc <= |f| && i < argc && |t| == argc
    requires ScanRepeat(f, i).Some? && ScanRepeat(f, i).value.last < argc
    requires decode(f[i], ScanRepeat(f, i).value.count).Ok?
    ensures var rep := ScanRepeat(f, i).value;
      Fill(decode, f, argc, i, t) ==
        Fill(decode, f, argc, rep.last + 1, t[rep.last := Some(decode(f[i], rep.count).value)])
  {
  }

  /** Before `argc`, a scan that reaches anything reaches the descriptor at `i` first. */
  lemma ReachedStep(f: string, argc: nat, i: nat)
    requires argc <= |f| && i < argc && ReachesEnd(Reached(f, argc, i), i, argc)
    ensures ScanRepeat(f, i).Some? && ScanRepeat(f, i).value.last < argc
    ensures Reached(f, argc, i) ==
      [Visit(i, ScanRepeat(f, i).value)] + Reached(f, argc, ScanRepeat(f, i).value.last + 1)
  {
  }

  /** The rest of a scan that ends at `argc` also ends at `argc`. */
  lemma ReachesEndRest(f: string, argc: nat, i: nat)
    requires argc <= |f| && i < argc && ReachesEnd(Reached(f, argc, i), i, argc)
    ensures ScanRepeat(f, i).Some? && ScanRepeat(f, i).value.last < argc
    ensures var next := ScanRepeat(f, i).value.last + 1;
      ReachesEnd(Reached(f, argc, next), next, argc)
  {
    var vs := Reached(f, argc, i);
    ReachedStep(f, argc, i);
    var rest := Reached(f, argc, ScanRepeat(f, i).value.last + 1);
    assert rest != [] ==> rest[|rest| - 1] == vs[|vs| - 1];
  }

  /** A scan that ends at `argc` with every descriptor resolving takes one more step from
      `i`: the descriptor there scans, fits and resolves, and the rest of the scan still ends
      at `argc` with every descriptor resolving. */
  lemma ReachedRest(decode: Decoder, f: string, argc: nat, i: nat)
    requires argc <= |f| && i < argc
    requires ReachesEnd(Reached(f, argc, i), i, argc) && AllResolve(decode, f, Reached(f, argc, i))
    ensures ScanRepeat(f, i).Some? && ScanRepeat(f, i).value.last < argc
    ensures decode(f[i], ScanRepeat(f, i).value.count).Ok?
    ensures var next := ScanRepeat(f, i).value.last + 1;
      ReachesEnd(Reached(f, argc, next), next, argc) && AllResolve(decode, f, Reached(f, argc, next))
  {
    ReachesEndRest(f, argc, i);
    var vs := Reached(f, argc, i);
    var rest := Reached(f, argc, ScanRepeat(f, i).value.last + 1);
    assert vs == [Visit(i, ScanRepeat(f, i).value)] + rest by {
      ReachedStep(f, argc, i);
    }
    assert vs[0] in vs;
    assert forall v :: v in rest ==> v in vs;
  }

  /** The converse of `FillReachesEnd` and `FillWritesReached`: a loop whose reached
      descriptors end at `argc` and all resolve succeeds. */
  lemma {:induction false} FillSucceeds(decode: Decoder, f: string, argc: nat, i: nat, t: Tuple)
    requires argc <= |f| && i <= argc && |t| == argc
    requires ReachesEnd(Reached(f, argc, i), i, argc) && AllResolve(decode, f, Reached(f, argc, i))
    ensures Fill(decode, f, argc, i, t).Ok?
    decreases argc - i
  {
    if i < argc {
      ReachedRest(decode, f, argc, i);
      var rep := ScanRepeat(f, i).value;
      var t' := t[rep.last := Some(decode(f[i], rep.count).value)];
      FillSucceeds(decode, f, argc, rep.last + 1, t');
      FillUnfolds(decode, f, argc, i, t);
    }
  }

  /** What a reached descriptor comes to. */
  function Resolve(decode: Decoder, f: string, v: Visit): Outcome<Arg>
    requires v.pos < |f|
  {
    decode(f[v.pos], v.rep.count)
  }

  /** `vs[m]` is the first of `vs` that does not resolve. */
  predicate FirstUnresolved(decode: Decoder, f: string, vs: seq<Visit>, m: nat) {
    && m < |vs| && vs[m].pos < |f| && !Resolve(decode, f, vs[m]).Ok?
    && forall n :: 0 <= n < m ==> vs[n].pos < |f| && Resolve(decode, f, vs[n]).Ok?
  }

  /** Behind a descriptor that resolves, the first one that does not lies in the rest. */
  lemma FirstUnresolvedCons(decode: Decoder, f: string, v: Visit, rest: seq<Visit>, m: nat)
    requires FirstUnresolved(decode, f, [v] + rest, m) && v.pos < |f| && Resolve(decode, f, v).Ok?
    ensures m > 0 && FirstUnresolved(decode, f, rest, m - 1) && ([v] + rest)[m] == rest[m - 1]
  {
    var vs := [v] + rest;
    assert m != 0;
    assert forall n :: 0 <= n < m - 1 ==> rest[n] == vs[n + 1];
  }

  /** Behind a descriptor, the rest resolves when the whole does, and the scan ends where the
      rest's does. */
  lemma ResolveCons(decode: Decoder, f: string, v: Visit, rest: seq<Visit>, i: nat)
    ensures AllResolve(decode, f, [v] + rest) ==> AllResolve(decode, f, rest)
    ensures ScanEnd([v] + rest, i) == ScanEnd(rest, v.rep.last + 1)
  {
    var vs := [v] + rest;
    assert forall w :: w in rest ==> w in vs;
    assert rest != [] ==> rest[|rest| - 1] == vs[|vs| - 1];
  }

  /** Before `argc`, a descriptor that scans and fits is the first one reached. */
  lemma ReachedUnfolds(f: string, argc: nat, i: nat)
    requires argc <= |f| && i < argc
    requires ScanRepeat(f, i).Some? && ScanRepeat(f, i).value.last < argc
    ensures Reached(f, argc, i) ==
      [Visit(i, ScanRepeat(f, i).value)] + Reached(f, argc, ScanRepeat(f, i).value.last + 1)
  {
  }

  /** How the loop ends at scan position `p` when it cannot go on: the repeat count there
      throws, the descriptor there fails, or its argument would go to a slot past the end of
      the tuple. */
  function StopOutcome(decode: Decoder, f: string, p: nat): Outcome<Tuple>
    requires p < |f|
  {
    match ScanRepeat(f, p)
    case None => Fault(RepeatCountThrows(p))
    case Some(rep) =>
      var d := decode(f[p], rep.count);
      if d.Ok? then Fault(TupleSlotOutOfRange(rep.last)) else d.Propagate()
  }

  /** How a loop that reached `vs` from `i` fails with outcome `o`: as the first of `vs` that
      does not resolve, or, when they all resolve, as the scan stops at `ScanEnd(vs, i)`, which
      lies before `argc`. */
  ghost predicate FailsAs(decode: Decoder, f: string, argc: nat, i: nat, vs: seq<Visit>, o: Outcome<Tuple>)
    requires argc <= |f|
  {
    && (forall m: nat :: FirstUnresolved(decode, f, vs, m) ==> o == Resolve(decode, f, vs[m]).Propagate())
    && (AllResolve(decode, f, vs) ==> ScanEnd(vs, i) < argc && o == StopOutcome(decode, f, ScanEnd(vs, i)))
  }

  /** A descriptor at `pos` that resolves, put in front of the rest of a scan, leaves the way
      the scan fails as it was: `vs` is the whole scan and `o'` its outcome. */
  lemma FailureCarries(decode: Decoder, f: string, argc: nat, i: nat, pos: nat, rep: Repeat,
                       rest: seq<Visit>, o: Outcome<Tuple>, vs: seq<Visit>, o': Outcome<Tuple>)
    requires argc <= |f| && pos < |f| && decode(f[pos], rep.count).Ok?
    requires FailsAs(decode, f, argc, rep.last + 1, rest, o)
    requires vs == [Visit(pos, rep)] + rest && o' == o
    ensures FailsAs(decode, f, argc, i, vs, o')
  {
    var v := Visit(pos, rep);
    ResolveCons(decode, f, v, rest, i);
    forall m: nat | FirstUnresolved(decode, f, [v] + rest, m)
      ensures o == Resolve(decode, f, ([v] + rest)[m]).Propagate()
    {
      FirstUnresolvedCons(decode, f, v, rest, m);
    }
  }

  /** Which failure a marshaling loop that fails comes back with, for any format: that of the
      first reached descriptor that does not resolve; when they all resolve, the scan stopped
      before `argc` and the outcome is how it stopped there. */
  lemma {:induction false} FillFailure(decode: Decoder, f: string, argc: nat, i: nat, t: Tuple)
    requires argc <= |f| && i <= argc && |t| == argc
    requires !Fill(decode, f, argc, i, t).Ok?
    ensures FailsAs(decode, f, argc, i, Reached(f, argc, i), Fill(decode, f, argc, i, t))
    decreases argc - i, 1
  {
    if i == argc {
      assert false;
    } else if ScanRepeat(f, i).Some? && ScanRepeat(f, i).value.last < argc &&
              decode(f[i], ScanRepeat(f, i).value.count).Ok? {
      FillUnfolds(decode, f, argc, i, t);
      FillFailureStep(decode, f, argc, i, t);
    } else {
      FillFailureHere(decode, f, argc, i, t);
    }
  }

  /** `FillFailure` past a descriptor at `i` that scans, fits and resolves: the rest of the
      loop fails the same way. */
  lemma {:induction false} FillFailureStep(decode: Decoder, f: string, argc: nat, i: nat, t: Tuple)
    requires argc <= |f| && i < argc && |t| == argc
    requires ScanRepeat(f, i).Some? && ScanRepeat(f, i).value.last < argc
    requires decode(f[i], ScanRepeat(f, i).value.count).Ok?
    requires var rep := ScanRepeat(f, i).value;
      !Fill(decode, f, argc, rep.last + 1, t[rep.last := Some(decode(f[i], rep.count).value)]).Ok?
    ensures FailsAs(decode, f, argc, i, Reached(f, argc, i), Fill(decode, f, argc, i, t))
    decreases argc - i, 0
  {
    var rep := ScanRepeat(f, i).value;
    var t' := t[rep.last := Some(decode(f[i], rep.count).value)];
    var rest := Reached(f, argc, rep.last + 1);
    var o := Fill(decode, f, argc, rep.last + 1, t');
    FillUnfolds(decode, f, argc, i, t);
    FillFailure(decode, f, argc, rep.last + 1, t');
    ReachedUnfolds(f, argc, i);
    FailureCarries(decode, f, argc, i, i, rep, rest, o, Reached(f, argc, i), Fill(decode, f, argc, i, t));
  }

  /** `FillFailure` where the loop stops at `i` itself. */
  lemma FillFailureHere(decode: Decoder, f: string, argc: nat, i: nat, t: Tuple)
    requires argc <= |f| && i < argc && |t| == argc
    requires !(ScanRepeat(f, i).Some? && ScanRepeat(f, i).value.last < argc &&
               decode(f[i], ScanRepeat(f, i).value.count).Ok?)
    ensures FailsAs(decode, f, argc, i, Reached(f, argc, i), Fill(decode, f, argc, i, t))
  {
    var vs := Reached(f, argc, i);
    if ScanRepeat(f, i).Some? && ScanRepeat(f, i).value.last < argc {
      ReachedUnfolds(f, argc, i);
      assert vs[0] in vs;
      assert forall m: nat :: FirstUnresolved(decode, f, vs, m) ==> m == 0;
    } else {
      assert vs == [];
    }
  }

  /** Which failure marshaling comes back with, for any format: the first reached descriptor
      that does not resolve decides it; when all resolve, the scan stopped before `argc`, at a
      repeat count that throws or at a descriptor that fails or would write past the tuple. */
  lemma ArgvTupleFailure(rt: Runtime, reg: Registry, f: string, argc: nat, refs: seq<Native>, vals: seq<Text>)
    requires argc <= |f|
    requires !ArgvTuple(rt, reg, f, argc, refs, vals).Ok?
    ensures var decode := Descriptors(rt, reg, refs, vals);
      forall m: nat :: FirstUnresolved(decode, f, Reached(f, argc, 0), m) ==>
        ArgvTuple(rt, reg, f, argc, refs, vals) == Resolve(decode, f, Reached(f, argc, 0)[m]).Propagate()
    ensures var decode := Descriptors(rt, reg, refs, vals);
      AllResolve(decode, f, Reached(f, argc, 0)) ==>
        ScanEnd(Reached(f, argc, 0), 0) < argc &&
        ArgvTuple(rt, reg, f, argc, refs, vals) == StopOutcome(decode, f, ScanEnd(Reached(f, argc, 0), 0))
  {
    FillFailure(Descriptors(rt, reg, refs, vals), f, argc, 0, seq(argc, _ => None));
  }

  /** For any format, marshaling succeeds exactly when the scan reaches `argc` and every
      descriptor it reaches resolves. */
  lemma ArgvTupleSucceeds(rt: Runtime, reg: Registry, f: string, argc: nat, refs: seq<Native>, vals: seq<Text>)
    requires argc <= |f|
    ensures ArgvTuple(rt, reg, f, argc, refs, vals).Ok? <==>
      ReachesEnd(Reached(f, argc, 0), 0, argc) && AllResolve(Descriptors(rt, reg, refs, vals), f, Reached(f, argc, 0))
  {
    var decode := Descriptors(rt, reg, refs, vals);
    var t: Tuple := seq(argc, _ => None);
    if Fill(decode, f, argc, 0, t).Ok? {
      FillReachesEnd(decode, f, argc, 0, t);
      FillWritesReached(decode, f, argc, 0, t);
    } else if ReachesEnd(Reached(f, argc, 0), 0, argc) && AllResolve(decode, f, Reached(f, argc, 0)) {
      FillSucceeds(decode, f, argc, 0, t);
    }
  }

  /** What a successful marshaling holds, whatever the format: slot `last` of every reached
      descriptor's repeat run holds that descriptor's argument, and every slot no reached
      descriptor writes is NULL. */
  lemma ArgvTupleContents(rt: Runtime, reg: Registry, f: string, argc: nat,
                          refs: seq<Native>, vals: seq<Text>)
    requires argc <= |f|
    ensures ArgvTuple(rt, reg, f, argc, refs, vals).Ok? ==>
      forall v :: v in Reached(f, argc, 0) ==>
        DescriptorArg(rt, reg, f[v.pos], v.rep.count, refs, vals).Ok? &&
        ArgvTuple(rt, reg, f, argc, refs, vals).value[v.rep.last] ==
          Some(DescriptorArg(rt, reg, f[v.pos], v.rep.count, refs, vals).value)
    ensures ArgvTuple(rt, reg, f, argc, refs, vals).Ok? ==>
      forall s :: 0 <= s < argc && s !in Written(Reached(f, argc, 0)) ==>
        ArgvTuple(rt, reg, f, argc, refs, vals).value[s] == None
  {
    var t: Tuple := seq(argc, _ => None);
    if ArgvTuple(rt, reg, f, argc, refs, vals).Ok? {
      FillWritesReached(Descriptors(rt, reg, refs, vals), f, argc, 0, t);
      FillKeepsUnwritten(Descriptors(rt, reg, refs, vals), f, argc, 0, t);
    }
  }

  /** True when every slot of a tuple holds an argument. A tuple with a NULL item must not
      reach interpreter code, which reads its items without a NULL check. */
  predicate Filled(t: Tuple) {
    forall k :: 0 <= k < |t| ==> t[k].Some?
  }

  predicate NoDigits(f: string) {
    forall i :: 0 <= i < |f| ==> !IsDigit(f[i])
  }

  predicate NoObjectTags(f: string) {
    forall i :: 0 <= i < |f| ==> !IsObjectTag(f[i])
  }

  /** One turn of the loop on a format without digits: the descriptor at `i` is decoded with
      repeat count 0 and, when it resolves, written at slot `i`. */
  lemma FillStepDigitFree(decode: Decoder, f: string, argc: nat, i: nat, t: Tuple)
    requires argc <= |f| && i < argc && |t| == argc && NoDigits(f)
    ensures var d := decode(f[i], 0);
      Fill(decode, f, argc, i, t) ==
        if d.Ok? then Fill(decode, f, argc, i + 1, t[i := Some(d.value)]) else d.Propagate()
  {
    ScanRepeatWithoutDigits(f, i);
  }

  lemma {:induction false} FillDigitFreeOk(decode: Decoder, f: string, argc: nat, i: nat, t: Tuple)
    requires argc <= |f| && i <= argc && |t| == argc && NoDigits(f)
    ensures Fill(decode, f, argc, i, t).Ok? <==> forall k :: i <= k < argc ==> decode(f[k], 0).Ok?
    decreases argc - i
  {
    if i < argc {
      FillStepDigitFree(decode, f, argc, i, t);
      var d := decode(f[i], 0);
      if d.Ok? {
        FillDigitFreeOk(decode, f, argc, i + 1, t[i := Some(d.value)]);
      }
    }
  }

  lemma {:induction false} FillDigitFreeValues(decode: Decoder, f: string, argc: nat, i: nat, t: Tuple)
    requires argc <= |f| && i <= argc && |t| == argc && NoDigits(f)
    requires Fill(decode, f, argc, i, t).Ok?
    ensures forall k :: i <= k < argc ==>
      decode(f[k], 0).Ok? && Fill(decode, f, argc, i, t).value[k] == Some(decode(f[k], 0).value)
    decreases argc - i
  {
    if i < argc {
      FillStepDigitFree(decode, f, argc, i, t);
      var d := decode(f[i], 0);
      var t' := t[i := Some(d.value)];
      var r := Fill(decode, f, argc, i, t);
      assert r == Fill(decode, f, argc, i + 1, t');
      FillDigitFreeValues(decode, f, argc, i + 1, t');
      assert r.value[i] == t'[i];
    }
  }

  lemma {:induction false} FillDigitFreeFailure(decode: Decoder, f: string, argc: nat, i: nat, t: Tuple)
    requires argc <= |f| && i <= argc && |t| == argc && NoDigits(f)
    requires !Fill(decode, f, argc, i, t).Ok?
    ensures exists k :: (i <= k < argc && !decode(f[k], 0).Ok? &&
      Fill(decode, f, argc, i, t) == decode(f[k], 0).Propagate() &&
      forall m :: i <= m < k ==> decode(f[m], 0).Ok?)
    decreases argc - i
  {
    FillStepDigitFree(decode, f, argc, i, t);
    var d := decode(f[i], 0);
    if d.Ok? {
      var t' := t[i := Some(d.value)];
      FillDigitFreeFailure(decode, f, argc, i + 1, t');
      var k :| i + 1 <= k < argc && !decode(f[k], 0).Ok? &&
        Fill(decode, f, argc, i + 1, t') == decode(f[k], 0).Propagate() &&
        forall m :: i + 1 <= m < k ==> decode(f[m], 0).Ok?;
      assert forall m :: i <= m < k ==> decode(f[m], 0).Ok?;
    }
  }

  /** For a format without digits, marshaling succeeds exactly when every descriptor resolves,
      slot `k` then holds descriptor `k`'s argument, and otherwise the first descriptor that
      fails decides the outcome. Every descriptor sees the same reference 0 and value 0. */
  lemma ArgvTupleDigitFree(rt: Runtime, reg: Registry, f: string, argc: nat,
                           refs: seq<Native>, vals: seq<Text>)
    requires argc <= |f| && NoDigits(f)
    ensures ArgvTuple(rt, reg, f, argc, refs, vals).Ok? <==>
      forall k :: 0 <= k < argc ==> DescriptorArg(rt, reg, f[k], 0, refs, vals).Ok?
    ensures ArgvTuple(rt, reg, f, argc, refs, vals).Ok? ==>
      forall k :: 0 <= k < argc ==>
        ArgvTuple(rt, reg, f, argc, refs, vals).value[k] == Some(DescriptorArg(rt, reg, f[k], 0, refs, vals).value)
    ensures !ArgvTuple(rt, reg, f, argc, refs, vals).Ok? ==>
      exists k :: (0 <= k < argc && !DescriptorArg(rt, reg, f[k], 0, refs, vals).Ok? &&
        ArgvTuple(rt, reg, f, argc, refs, vals) == DescriptorArg(rt, reg, f[k], 0, refs, vals).Propagate() &&
        forall m :: 0 <= m < k ==> DescriptorArg(rt, reg, f[m], 0, refs, vals).Ok?)
  {
    var decode := Descriptors(rt, reg, refs, vals);
    var t: Tuple := seq(argc, _ => None);
    FillDigitFreeOk(decode, f, argc, 0, t);
    if Fill(decode, f, argc, 0, t).Ok? {
      FillDigitFreeValues(decode, f, argc, 0, t);
    } else {
      FillDigitFreeFailure(decode, f, argc, 0, t);
    }
  }

  /** Because the value counter restarts at 0 for each descriptor, `"ss"` passes the first
      value string twice and never reads the second. */
  lemma CountersRestartPerDescriptor(rt: Runtime, reg: Registry, refs: seq<Native>, a: string, b: string)
    ensures ArgvTuple(rt, reg, "ss", 2, refs, [Some(a), Some(b)]) == Ok([Some(Str(a)), Some(Str(a))])
  {
    var vals: seq<Text> := [Some(a), Some(b)];
    var f := "ss";
    assert f[0] == 's' && f[1] == 's';
    assert DescriptorArg(rt, reg, 's', 0, refs, vals) == Ok(Str(a));
    ArgvTupleDigitFree(rt, reg, f, 2, refs, vals);
    var r := ArgvTuple(rt, reg, f, 2, refs, vals);
    assert r.Ok?;
    assert r.value[0] == Some(Str(a)) && r.value[1] == Some(Str(a));
    assert r.value == [Some(Str(a)), Some(Str(a))];
  }

  /** A descriptor whose repeat run follows it directly at the start of the format leaves
      slot 0 of the tuple NULL: its argument goes to the slot of the run's last digit. */
  lemma RepeatLeavesFirstSlotEmpty(rt: Runtime, reg: Registry, f: string, argc: nat,
                                   refs: seq<Native>, vals: seq<Text>)
    requires 0 < argc <= |f| && 1 < |f| && IsDigit(f[1])
    ensures ArgvTuple(rt, reg, f, argc, refs, vals).Ok? ==> ArgvTuple(rt, reg, f, argc, refs, vals).value[0] == None
  {
    var t: Tuple := seq(argc, _ => None);
    match ScanRepeat(f, 0)
    case None =>
    case Some(rep) =>
      assert rep.last > 0;
  }

  /** In `"ss2s"` the second descriptor's repeat run moves its group to slot 2: slot 1 stays
      NULL and the third descriptor is never read. */
  lemma RepeatSkipsSlotAndDescriptor(rt: Runtime, reg: Registry, refs: seq<Native>, a: string, b: string)
    ensures ArgSize("ss2s") == 3
    ensures ArgvTuple(rt, reg, "ss2s", 3, refs, [Some(a), Some(b)]) ==
      Ok([Some(Str(a)), None, Some(Group([Str(a), Str(b)]))])
  {
    var f := "ss2s";
    var vals: seq<Text> := [Some(a), Some(b)];
    assert ArgSize(f) == 3;
    assert ScanRepeat(f, 0) == Some(Repeat(0, 0)) by {
      assert DigitRunEnd(f, 1) == 1;
    }
    assert ScanRepeat(f, 1) == Some(Repeat(2, 2)) by {
      assert DigitRunEnd(f, 2) == 3;
      assert f[2..3] == "2";
      assert Value("2") == 2;
    }
    var group: seq<Arg> := [Str(a), Str(b)];
    assert DecodeGroup(rt, 's', vals, 2, 0) == Ok(group) by {
      assert vals[0] == Some(a) && vals[1] == Some(b);
      var ga: seq<Arg> := [Str(a)];
      var gb: seq<Arg> := [Str(b)];
      assert gb + [] == gb;
      assert DecodeGroup(rt, 's', vals, 2, 1) == Ok(gb);
      assert ga + gb == group;
    }
    var t0: Tuple := seq(3, _ => None);
    var d := Descriptors(rt, reg, refs, vals);
    assert Fill(d, f, 3, 0, t0) == Fill(d, f, 3, 1, t0[0 := Some(Str(a))]);
    assert Fill(d, f, 3, 1, t0[0 := Some(Str(a))]) ==
      Fill(d, f, 3, 3, t0[0 := Some(Str(a))][2 := Some(Group([Str(a), Str(b)]))]);
    assert t0[0 := Some(Str(a))][2 := Some(Group([Str(a), Str(b)]))] ==
      [Some(Str(a)), None, Some(Group([Str(a), Str(b)]))];
  }

  /** `"f3"` alone never marshals: its group goes to slot 1 of a one-slot tuple, unless a
      failure comes first. */
  lemma RepeatedSoleDescriptorNeverMarshals(rt: Runtime, reg: Registry, refs: seq<Native>, vals: seq<Text>)
    ensures !ArgvTuple(rt, reg, "f3", ArgSize("f3"), refs, vals).Ok?
  {
    assert ArgSize("f3") == 1;
    assert ScanRepeat("f3", 0) == Some(Repeat(3, 1)) by {
      assert DigitRunEnd("f3", 1) == 2;
      assert Value("3") == 3;
    }
  }

  /** With three values that parse, `"f3"` builds its group of three and then writes it to
      slot 1 of the one-slot tuple. */
  lemma SoleRepeatWritesPastEnd(rt: Runtime, reg: Registry, refs: seq<Native>, x: string, y: string, z: string)
    requires rt.stod(x).Some? && rt.stod(y).Some? && rt.stod(z).Some?
    ensures ArgvTuple(rt, reg, "f3", 1, refs, [Some(x), Some(y), Some(z)]) == Fault(TupleSlotOutOfRange(1))
  {
    var vals: seq<Text> := [Some(x), Some(y), Some(z)];
    assert ScanRepeat("f3", 0) == Some(Repeat(3, 1)) by {
      assert DigitRunEnd("f3", 1) == 2;
      assert Value("3") == 3;
    }
    assert "f3"[0] == 'f';
    assert DescriptorArg(rt, reg, 'f', 3, refs, vals).Ok? by {
      assert forall j :: 0 <= j < 3 ==> vals[j].Some? && DecodeScalar(rt, 'f', vals[j].value).Ok?;
    }
  }

  /** The counting helper credits `"f3"` with one value slot while the marshaler reads three:
      handed the one value the count provides, it reads past the end. */
  lemma RepeatReadsPastCountedWindow(rt: Runtime, reg: Registry, refs: seq<Native>, x: string)
    requires rt.stod(x).Some?
    ensures CountSlots("f3", Slots(0, 0)).vals == 1
    ensures ArgvTuple(rt, reg, "f3", 1, refs, [Some(x)]) == Fault(ValueIndexOutOfRange(1))
  {
    assert ScanRepeat("f3", 0) == Some(Repeat(3, 1)) by {
      assert DigitRunEnd("f3", 1) == 2;
      assert Value("3") == 3;
    }
  }

  lemma DescriptorArgIgnoresRegistry(rt: Runtime, reg1: Registry, reg2: Registry, def: char, spec: nat,
                                     refs: seq<Native>, vals: seq<Text>)
    requires !IsObjectTag(def)
    ensures DescriptorArg(rt, reg1, def, spec, refs, vals) == DescriptorArg(rt, reg2, def, spec, refs, vals)
  {
  }

  /** Two decoders that agree on the format's letters marshal it alike. */
  lemma {:induction false} FillAgrees(d1: Decoder, d2: Decoder, f: string, argc: nat, i: nat, t: Tuple)
    requires argc <= |f| && i <= argc && |t| == argc
    requires forall k, spec :: 0 <= k < |f| ==> d1(f[k], spec) == d2(f[k], spec)
    ensures Fill(d1, f, argc, i, t) == Fill(d2, f, argc, i, t)
    decreases argc - i
  {
    if i < argc {
      match ScanRepeat(f, i)
      case None =>
      case Some(rep) =>
        var d := d1(f[i], rep.count);
        assert d == d2(f[i], rep.count);
        if d.Ok? && rep.last < argc {
          FillUnfolds(d1, f, argc, i, t);
          FillUnfolds(d2, f, argc, i, t);
          FillAgrees(d1, d2, f, argc, rep.last + 1, t[rep.last := Some(d.value)]);
        }
    }
  }

  /** Without object descriptors the registry plays no part in marshaling. */
  lemma ArgvTupleIgnoresRegistry(rt: Runtime, reg1: Registry, reg2: Registry, f: string, argc: nat,
                                 refs: seq<Native>, vals: seq<Text>)
    requires argc <= |f| && NoObjectTags(f)
    ensures ArgvTuple(rt, reg1, f, argc, refs, vals) == ArgvTuple(rt, reg2, f, argc, refs, vals)
  {
    var d1 := Descriptors(rt, reg1, refs, vals);
    var d2 := Descriptors(rt, reg2, refs, vals);
    forall k, spec | 0 <= k < |f|
      ensures d1(f[k], spec) == d2(f[k], spec)
    {
      DescriptorArgIgnoresRegistry(rt, reg1, reg2, f[k], spec, refs, vals);
    }
    FillAgrees(d1, d2, f, argc, 0, seq(argc, _ => None));
  }
}

=== FILE: outcomes.dfy ===
/** Failure-carrying values shared by every part of the bridge model. */
module Outcomes {

  /** A pointer the interpreter or the toolkit may hand back as NULL: `None` is the NULL. */
  datatype Option<+T> = None | Some(value: T)

  /** What the bridge does that has no defined result in C++: an index past the end of a
      vector, a write past the end of a tuple, a standard-library conversion that throws and
      is never caught, a NULL handed to a routine that dereferences it, a tuple handed to the
      interpreter with a slot never set. The model stops at
      such a point instead of guessing what the program would do next. */
  datatype Hazard =
    | ValueIndexOutOfRange(index: nat)
    | ReferenceIndexOutOfRange(index: nat)
    | TupleSlotOutOfRange(slot: nat)
    | NullValueText(index: nat)
    | ConversionThrows(text: string)
    | RepeatCountThrows(position: nat)
    | WindowOutOfRange(step: nat)
    | NullResultText
    | UnfilledTupleSlot

  /** The three ways a bridge operation ends: a value, the NULL sentinel the bridge returns
      after printing a diagnostic, or a hazard. */
  datatype Outcome<+T> = Ok(value: T) | Null | Fault(cause: Hazard)
  {
    /** A NULL or a hazard met while producing one kind of value, passed on unchanged as the
        outcome of an operation producing another kind. */
    function Propagate<U>(): Outcome<U>
      requires !Ok?
    {
      if Null? then Null else Fault(cause)
    }
  }
}

=== FILE: piped.dfy ===
/** Chained calls: a method on a registered object, then a method on each result in turn, with
    the reference and value lists of the whole chain cut into one window per step. */
module Piped {
  import opened Outcomes
  import opened Format
  import opened Bridge
  import opened Marshal
  import opened Introspector

  /** One `genericCall` the chain issued: the object it was made on, the method and the
      argument tuple. */
  datatype Invocation = Invocation(target: Dyn, methodName: string, args: Tuple)

  /** The outcome of a chain, with the calls after the first one it issued, in order. */
  datatype ChainRun = ChainRun(outcome: Outcome<Dyn>, issued: seq<Invocation>)

  /** What the interpreter answers to an issued call. */
  function Answer(rt: Runtime, inv: Invocation): Option<Dyn> {
    rt.genericCall(inv.target, inv.methodName, inv.args)
  }

  /** The reference and value counters once the first `k` formats are counted: the start of
      step `k`'s windows. */
  function Offsets(formats: seq<string>, k: nat): (o: Slots)
    requires k <= |formats|
  {
    if k == 0 then Slots(0, 0) else CountSlots(formats[k - 1], Offsets(formats, k - 1))
  }

  /** The counters never move backwards, so every step's window starts where the previous one
      ends. */
  lemma {:induction false} OffsetsMonotone(formats: seq<string>, j: nat, k: nat)
    requires j <= k <= |formats|
    ensures Offsets(formats, j).refs <= Offsets(formats, k).refs
    ensures Offsets(formats, j).vals <= Offsets(formats, k).vals
    decreases k
  {
    if j < k {
      OffsetsMonotone(formats, j, k - 1);
    }
  }

  /** The counters after `k` formats hold the reference descriptors and the value descriptors
      of those formats; together, all their descriptors. */
  lemma {:induction false} OffsetsCountDescriptors(formats: seq<string>, k: nat)
    requires k <= |formats|
    ensures Offsets(formats, k).refs + Offsets(formats, k).vals == TotalSize(formats[..k])
    ensures Offsets(formats, k).refs == TotalRefs(formats[..k])
  {
    if k > 0 {
      OffsetsCountDescriptors(formats, k - 1);
      assert formats[..k] == formats[..k - 1] + [formats[k - 1]];
      TotalsAppend(formats[..k - 1], formats[k - 1]);
    }
  }

  /** The number of descriptors of a list of formats. */
  function TotalSize(fs: seq<string>): nat {
    if fs == [] then 0 else TotalSize(fs[..|fs| - 1]) + ArgSize(fs[|fs| - 1])
  }

  /** The number of reference descriptors of a list of formats. */
  function TotalRefs(fs: seq<string>): nat {
    if fs == [] then 0 else TotalRefs(fs[..|fs| - 1]) + RefCount(fs[|fs| - 1])
  }

  lemma TotalsAppend(fs: seq<string>, f: string)
    ensures TotalSize(fs + [f]) == TotalSize(fs) + ArgSize(f)
    ensures TotalRefs(fs + [f]) == TotalRefs(fs) + RefCount(f)
  {
    assert (fs + [f])[..|fs + [f]| - 1] == fs;
  }

  /** The argument count a step passes, computed as the chain does from the counters' growth,
      is its format's one-argument `argsize`. */
  function StepArgc(formats: seq<string>, k: nat): (n: nat)
    requires k < |formats|
    ensures n == ArgSize(formats[k])
  {
    var lo := Offsets(formats, k);
    var hi := Offsets(formats, k + 1);
    (hi.refs - lo.refs) + (hi.vals - lo.vals)
  }

  /** The part of the reference and value lists one step reads. */
  datatype Window = Window(refs: seq<Native>, vals: seq<Text>)

  /** Step `k`'s windows: from the counters before its format to the counters after it. A
      window running past the end of its list is undefined behaviour. */
  function StepWindow(formats: seq<string>, k: nat, refs: seq<Native>, vals: seq<Text>): (w: Outcome<Window>)
    requires k < |formats|
    ensures w.Ok? <==> Offsets(formats, k + 1).refs <= |refs| && Offsets(formats, k + 1).vals <= |vals|
    ensures !w.Ok? ==> w == Fault(WindowOutOfRange(k))
    ensures w.Ok? ==>
      && |w.value.refs| == RefCount(formats[k])
      && |w.value.vals| == ArgSize(formats[k]) - RefCount(formats[k])
      && (forall n :: 0 <= n < |w.value.refs| ==> w.value.refs[n] == refs[Offsets(formats, k).refs + n])
      && (forall n :: 0 <= n < |w.value.vals| ==> w.value.vals[n] == vals[Offsets(formats, k).vals + n])
  {
    var lo := Offsets(formats, k);
    var hi := Offsets(formats, k + 1);
    if hi.refs > |refs| || hi.vals > |vals| then Fault(WindowOutOfRange(k))
    else Ok(Window(refs[lo.refs..hi.refs], vals[lo.vals..hi.vals]))
  }

  /** The argument tuple of step `k` >= 1: its format marshaled over its windows. */
  function StepArgs(rt: Runtime, reg: Registry, formats: seq<string>, k: nat,
                    refs: seq<Native>, vals: seq<Text>): (r: Outcome<Tuple>)
    requires k < |formats|
    ensures r.Ok? ==> |r.value| == ArgSize(formats[k])
    ensures !StepWindow(formats, k, refs, vals).Ok? ==> r == Fault(WindowOutOfRange(k))
    ensures StepWindow(formats, k, refs, vals).Ok? ==>
      r == CallArgs(rt, reg, formats[k], StepWindow(formats, k, refs, vals).value.refs,
                    StepWindow(formats, k, refs, vals).value.vals)
  {
    match StepWindow(formats, k, refs, vals)
    case Null => Null
    case Fault(c) => Fault(c)
    case Ok(w) => ArgvTuple(rt, reg, formats[k], StepArgc(formats, k), w.refs, w.vals)
  }

  /** Step 0: the method called on the registered object with its windows. */
  function FirstStep(rt: Runtime, reg: Registry, obj: Native, methods: seq<string>, formats: seq<string>,
                     refs: seq<Native>, vals: seq<Text>): (r: Outcome<Dyn>)
    requires 1 <= |methods| <= |formats|
    ensures !StepWindow(formats, 0, refs, vals).Ok? ==> r == Fault(WindowOutOfRange(0))
    ensures StepWindow(formats, 0, refs, vals).Ok? ==>
      r == ObjectMethod(rt, reg, obj, methods[0], formats[0], StepWindow(formats, 0, refs, vals).value.refs,
                        StepWindow(formats, 0, refs, vals).value.vals)
  {
    match StepWindow(formats, 0, refs, vals)
    case Null => Null
    case Fault(c) => Fault(c)
    case Ok(w) => ObjectMethod(rt, reg, obj, methods[0], formats[0], w.refs, w.vals)
  }

  /** The argument tuples of steps 1 onwards, at their step's index. Each depends on its
      step alone, so building them ahead of the calls changes nothing. */
  function ChainArgs(rt: Runtime, reg: Registry, formats: seq<string>, count: nat,
                     refs: seq<Native>, vals: seq<Text>): (args: seq<Outcome<Tuple>>)
    requires count <= |formats|
    ensures |args| == count
    ensures forall k :: 1 <= k < count ==> args[k] == StepArgs(rt, reg, formats, k, refs, vals)
  {
    seq(count, k requires 0 <= k < count => if k == 0 then Null else StepArgs(rt, reg, formats, k, refs, vals))
  }

  /** The previous step's result as the next step's caller: None for NULL. */
  function Caller(result: Outcome<Dyn>): (c: Option<Dyn>)
    ensures c.Some? <==> result.Ok?
    ensures c.Some? ==> c.value == result.value
  {
    if result.Ok? then Some(result.value) else None
  }

  /** How a run of steps `i` onwards, started with `caller`, ends without a value, checked in
      the order the chain meets the cases. A call that answered NULL ends it with NULL at once.
      With no step left, a NULL caller is the NULL result. Otherwise the next step stops it: its
      arguments could not be built (that failure), it has no caller (NULL), or its tuple has a
      slot left NULL (a fault). */
  predicate Stopped(rt: Runtime, args: seq<Outcome<Tuple>>, i: nat, caller: Option<Dyn>, r: ChainRun) {
    var next := i + |r.issued|;
    var current := if r.issued == [] then caller else Answer(rt, r.issued[|r.issued| - 1]);
    if r.issued != [] && current.None? then r.outcome == Null
    else if next >= |args| then current.None? && r.outcome == Null
    else if !args[next].Ok? then r.outcome == args[next].Propagate()
    else if current.None? then r.outcome == Null
    else !Filled(args[next].value) && r.outcome == Fault(UnfilledTupleSlot)
  }

  /** A run of later steps preceded by the call that produced their caller. */
  function Prepend(call: Invocation, run: ChainRun): (r: ChainRun)
    ensures r.outcome == run.outcome
    ensures |r.issued| == |run.issued| + 1 && r.issued[0] == call
    ensures forall n :: 0 < n < |r.issued| ==> r.issued[n] == run.issued[n - 1]
  {
    ChainRun(run.outcome, [call] + run.issued)
  }

  /** A run that stops after a call that answered stops the same way with that call put in
      front of it. */
  lemma PrependStopped(rt: Runtime, args: seq<Outcome<Tuple>>, i: nat, caller: Option<Dyn>,
                       call: Invocation, run: ChainRun)
    requires Answer(rt, call).Some? && (!run.outcome.Ok? ==> Stopped(rt, args, i + 1, Answer(rt, call), run))
    ensures !run.outcome.Ok? ==> Stopped(rt, args, i, caller, Prepend(call, run))
  {
    var r := Prepend(call, run);
    assert r.issued[|r.issued| - 1] == if run.issued == [] then call else run.issued[|run.issued| - 1];
  }

  /** Steps `i` onwards, `caller` being the previous step's result (None for NULL) and `args`
      the steps' argument tuples, with the calls they issue. A step whose arguments cannot be
      built ends the chain before its call; a NULL caller ends it without the call being made,
      because building the call's arguments from a NULL object fails; a tuple with a NULL slot
      is a fault once it reaches the interpreter; a failing call ends it after being made. */
  function Pipe(rt: Runtime, methods: seq<string>, args: seq<Outcome<Tuple>>, i: nat,
                caller: Option<Dyn>): (r: ChainRun)
    requires 1 <= i <= |methods| == |args|
    ensures |r.issued| <= |methods| - i
    ensures forall n :: 0 <= n < |r.issued| ==>
      && r.issued[n].methodName == methods[i + n]
      && args[i + n] == Ok(r.issued[n].args) && Filled(r.issued[n].args)
      && Some(r.issued[n].target) == (if n == 0 then caller else Answer(rt, r.issued[n - 1]))
    ensures r.outcome.Ok? ==>
      && |r.issued| == |methods| - i
      && Some(r.outcome.value) == (if r.issued == [] then caller else Answer(rt, r.issued[|r.issued| - 1]))
    ensures !r.outcome.Ok? ==> Stopped(rt, args, i, caller, r)
    decreases |methods| - i
  {
    if i == |methods| then
      ChainRun(if caller.Some? then Ok(caller.value) else Null, [])
    else
      match args[i]
      case Null => ChainRun(Null, [])
      case Fault(c) => ChainRun(Fault(c), [])
      case Ok(tuple) =>
        if caller.None? then ChainRun(Null, [])
        else if !Filled(tuple) then ChainRun(Fault(UnfilledTupleSlot), [])
        else
          var call := Invocation(caller.value, methods[i], tuple);
          match Answer(rt, call)
          case None => ChainRun(Null, [call])
          case Some(next) =>
            var run := Pipe(rt, methods, args, i + 1, Some(next));
            PrependStopped(rt, args, i, caller, call, run);
            Prepend(call, run)
  }

  /** The chain once step 0 has produced `first`: a fault ends it at once; otherwise the later
      steps run from `first` as their caller, NULL included. */
  function Chain(rt: Runtime, methods: seq<string>, first: Outcome<Dyn>, args: seq<Outcome<Tuple>>): (r: ChainRun)
    requires 1 <= |methods| == |args|
    ensures first.Fault? ==> r == ChainRun(first, [])
    ensures !first.Fault? ==> r == Pipe(rt, methods, args, 1, Caller(first))
  {
    if first.Fault? then ChainRun(first, []) else Pipe(rt, methods, args, 1, Caller(first))
  }

  /** A call that answers NULL ends the chain with NULL at once: no later step's arguments
      are looked at. */
  lemma PipeNullAnswerStops(rt: Runtime, methods: seq<string>, args: seq<Outcome<Tuple>>, i: nat,
                            caller: Option<Dyn>)
    requires 1 <= i < |methods| == |args|
    requires args[i].Ok? && Filled(args[i].value) && caller.Some?
    requires Answer(rt, Invocation(caller.value, methods[i], args[i].value)).None?
    ensures Pipe(rt, methods, args, i, caller) == ChainRun(Null, [Invocation(caller.value, methods[i], args[i].value)])
  {
  }

  /** `PyVtk_PipedObjectMethod`: step 0 calls `methods[0]` on the registered object; every
      later step calls its method on the previous step's result through `genericCall`, and the
      last result is returned. Step `k` marshals `formats[k]` over its own windows of the
      shared reference and value lists. The result of step 0 is not checked. */
  function PipedObjectMethod(rt: Runtime, reg: Registry, obj: Native, methods: seq<string>,
                             formats: seq<string>, refs: seq<Native>, vals: seq<Text>): (r: ChainRun)
    requires 1 <= |methods| <= |formats|
    ensures |r.issued| <= |methods| - 1
    ensures forall n :: 0 <= n < |r.issued| ==>
      && r.issued[n].methodName == methods[n + 1]
      && ChainArgs(rt, reg, formats, |methods|, refs, vals)[n + 1] == Ok(r.issued[n].args)
      && Filled(r.issued[n].args)
      && Some(r.issued[n].target) ==
         (if n == 0 then Caller(FirstStep(rt, reg, obj, methods, formats, refs, vals)) else Answer(rt, r.issued[n - 1]))
    ensures r.outcome.Ok? ==>
      && |r.issued| == |methods| - 1
      && Some(r.outcome.value) ==
         (if r.issued == [] then Caller(FirstStep(rt, reg, obj, methods, formats, refs, vals))
          else Answer(rt, r.issued[|r.issued| - 1]))
    ensures FirstStep(rt, reg, obj, methods, formats, refs, vals).Fault? ==>
      r == ChainRun(FirstStep(rt, reg, obj, methods, formats, refs, vals), [])
    ensures !r.outcome.Ok? ==>
      || (FirstStep(rt, reg, obj, methods, formats, refs, vals).Fault? &&
          r == ChainRun(FirstStep(rt, reg, obj, methods, formats, refs, vals), []))
      || Stopped(rt, ChainArgs(rt, reg, formats, |methods|, refs, vals), 1,
                 Caller(FirstStep(rt, reg, obj, methods, formats, refs, vals)), r)
  {
    Chain(rt, methods, FirstStep(rt, reg, obj, methods, formats, refs, vals),
          ChainArgs(rt, reg, formats, |methods|, refs, vals))
  }

  /** The windows of a one-format chain are the leading parts of the vectors. */
  lemma SingleWindow(f: string, refs: seq<Native>, vals: seq<Text>)
    requires RefCount(f) <= |refs| && ArgSize(f) - RefCount(f) <= |vals|
    ensures StepWindow([f], 0, refs, vals) == Ok(Window(refs[..RefCount(f)], vals[..ArgSize(f) - RefCount(f)]))
  {
    var lo := Offsets([f], 0);
    var hi := Offsets([f], 1);
    assert lo == Slots(0, 0);
    assert [f][0] == f;
    assert hi == CountSlots(f, lo);
    assert hi == Slots(RefCount(f), ArgSize(f) - RefCount(f));
    var w := StepWindow([f], 0, refs, vals);
    assert w.value.refs == refs[..RefCount(f)];
    assert w.value.vals == vals[..ArgSize(f) - RefCount(f)];
  }

  /** A chain of one method is a plain call on the registered object with the leading part of
      the lists, and issues nothing else. */
  lemma SingleMethodChain(rt: Runtime, reg: Registry, obj: Native, m: string, f: string,
                          refs: seq<Native>, vals: seq<Text>)
    requires RefCount(f) <= |refs| && ArgSize(f) - RefCount(f) <= |vals|
    ensures PipedObjectMethod(rt, reg, obj, [m], [f], refs, vals) ==
      ChainRun(ObjectMethod(rt, reg, obj, m, f, refs[..RefCount(f)], vals[..ArgSize(f) - RefCount(f)]), [])
  {
    SingleWindow(f, refs, vals);
    var first := FirstStep(rt, reg, obj, [m], [f], refs, vals);
    assert first == ObjectMethod(rt, reg, obj, m, f, refs[..RefCount(f)], vals[..ArgSize(f) - RefCount(f)]);
    var args := ChainArgs(rt, reg, [f], 1, refs, vals);
    assert !first.Fault? ==> Pipe(rt, [m], args, 1, Caller(first)) == ChainRun(first, []);
  }

  /** A NULL result of step 0 goes unnoticed: the chain still builds step 1's arguments, whose
      failure is what is reported, and otherwise ends with NULL before any further call. */
  lemma FailedFirstStepIsUnchecked(rt: Runtime, reg: Registry, obj: Native, methods: seq<string>,
                                   formats: seq<string>, refs: seq<Native>, vals: seq<Text>)
    requires 2 <= |methods| <= |formats|
    requires FirstStep(rt, reg, obj, methods, formats, refs, vals) == Null
    ensures var r := PipedObjectMethod(rt, reg, obj, methods, formats, refs, vals);
      && r.issued == []
      && r.outcome == (if StepArgs(rt, reg, formats, 1, refs, vals).Ok? then Null
                       else StepArgs(rt, reg, formats, 1, refs, vals).Propagate())
  {
  }

  /** The text the interpreter's `outputFormat` makes of a chain's result: NULL when the
      chain or the formatting call fails; a formatted value that is not text makes the copy of
      its characters undefined behaviour. */
  function FormatResult(rt: Runtime, result: Outcome<Dyn>): (r: Outcome<string>)
    ensures !result.Ok? ==> r == result.Propagate()
    ensures result.Ok? && rt.outputFormat(result.value).None? ==> r == Null
    ensures r.Ok? <==>
      result.Ok? && rt.outputFormat(result.value).Some? && rt.asString(rt.outputFormat(result.value).value).Some?
    ensures r.Ok? ==> rt.asString(rt.outputFormat(result.value).value) == Some(r.value)
    ensures r.Fault? && result.Ok? ==> r == Fault(NullResultText)
    ensures result.Ok? && rt.outputFormat(result.value).Some? && rt.asString(rt.outputFormat(result.value).value).None? ==>
      r == Fault(NullResultText)
  {
    match result
    case Null => Null
    case Fault(c) => Fault(c)
    case Ok(v) =>
      match rt.outputFormat(v)
      case None => Null
      case Some(out) =>
        match rt.asString(out)
        case None => Fault(NullResultText)
        case Some(text) => Ok(text)
  }

  /** `PyVtk_PipedObjectMethodAsString`: the chain's last result as text. Text comes back only
      when every call of the chain was issued and answered. */
  function PipedObjectMethodAsString(rt: Runtime, reg: Registry, obj: Native, methods: seq<string>,
                                     formats: seq<string>, refs: seq<Native>, vals: seq<Text>): (r: Outcome<string>)
    requires 1 <= |methods| <= |formats|
    ensures r.Ok? ==> |PipedObjectMethod(rt, reg, obj, methods, formats, refs, vals).issued| == |methods| - 1
    ensures r.Ok? ==> PipedObjectMethod(rt, reg, obj, methods, formats, refs, vals).outcome.Ok?
  {
    FormatResult(rt, PipedObjectMethod(rt, reg, obj, methods, formats, refs, vals).outcome)
  }

  /** A chain of one method formats the result of a plain call on the registered object with
      the leading part of the lists. */
  lemma SingleMethodChainAsString(rt: Runtime, reg: Registry, obj: Native, m: string, f: string,
                                  refs: seq<Native>, vals: seq<Text>)
    requires RefCount(f) <= |refs| && ArgSize(f) - RefCount(f) <= |vals|
    ensures PipedObjectMethodAsString(rt, reg, obj, [m], [f], refs, vals) ==
      FormatResult(rt, ObjectMethod(rt, reg, obj, m, f, refs[..RefCount(f)], vals[..ArgSize(f) - RefCount(f)]))
  {
    SingleMethodChain(rt, reg, obj, m, f, refs, vals);
  }
}
